=== FILE: README.md ===
# Heavy-range search, modelled in Dafny

This project models `findHeavyRange`, the heavy-range aggregator of the
highlight-reels maker (`functions/search_context.py`, lines 19-48). It takes
the nearest-neighbour matches of a query over frame descriptions and turns
them into one clip `(video file, start second, end second)`. It does so in
four steps:

1. **Group.** Each match id is the path of a frame description,
   `<workspace>/video_context/<stem>/frame_NNNN.txt`. It is grouped under its
   parent folder with `video_context` replaced by `source`, and the number
   `NNNN` is appended to that video's list, in hit order (lines 26-30).
2. **Pick.** A video is picked (lines 32-35).
3. **Count.** A histogram of that video's frame ordinals is built: each hit
   is placed at second `NNNN` (lines 37-39).
4. **Slide.** A window of `interval` seconds slides over `range(1, len(buffer) - interval)`.
   The first window with strictly the largest sum wins, and start 0 stays
   when no window holds anything (lines 41-45). The clip is the key plus
   `.MOV`, from `start` to `start + interval` (lines 47-48).

Modules, bottom to top:

- `Errors`: the `Result` wrapper. It also names the three ways the Python
  code raises: a non-numeric ordinal, the type error of line 34, and
  `max([])` at line 37.
- `PyStr`: `str.replace` (every non-overlapping occurrence, left to right).
- `Decimal`: `int()` on ASCII digit strings, and `%04d`.
- `PyPath`: POSIX `pathlib` parsing of `parent`, `name` and `stem`.
- `FrameId`:
  - parsing one match id into a `Hit(video, ordinal)`;
  - the folder layout that produces ids (`generate_video_context.py`,
    `build_video_index.py`);
  - the proof that every such id parses back to its source video and frame
    number.
- `Selection`: the "strictly larger than the best so far, starting from
  none / 0" rule. Both loops of the aggregator use it.
- `Occupancy`: the histogram, counts and sums.
- `Window`: the window scan, with Python slice semantics for any integer
  `interval`. It holds both a functional definition and a loop method that
  mirrors lines 41-45.
- `Grouping`: the dict of lines 26-30 (insertion order) and the two video
  choices, as written and as intended.
- `Clips`: the window scan read back over the hits themselves: how many hits
  each clip holds.
- `HeavyRange`: the whole function, as written and corrected.
- `Scenarios`: concrete inputs, including a worked example: hits on frames
  `[1,1,2,3,3,3,4,10]` of `clip` give `clip.MOV`, 1 to 5.

The model follows the Python code as written. Where the code departs from
its own docstring (line 23: "Find the range of frames that contain most
retrieved frames"), the model keeps the code and also gives the corrected
version:

- Line 42's `range(1, len(buffer) - interval)` ends one start before the
  last window that fits in the buffer, `len(buffer) - interval`. The model
  keeps this stop as `Window.WrittenStop`; `Window.FullStop` is the
  corrected one. See Findings.
- When the largest ordinal is at most `interval`, that `range` is empty.
  No window is scanned and the start stays 0 from line 41.
  `Clips.HeaviestClip` (its start-0 case) and
  `Scenarios.NothingScannedStartsAtZero` state this.
- Line 35's `videoCount = val` stores the list instead of its length, so a
  second video makes line 34 raise. The model keeps this as
  `Grouping.SelectAsWritten`; `Grouping.SelectMostHits` is the corrected
  choice. See Findings.
- Empty input is not a precondition. As in the code, `max([])` at line 37
  fails, which is modelled as `Err(NoMatches)`.

## Model

| member | source | states |
|---|---|---|
| Errors.Collect | functions/search_context.py:27-30 | a loop over results: every value in order when all succeed, otherwise the error of the first failure, with every earlier result a success |
| PyStr.Replace | functions/search_context.py:29-30 | Python's `str.replace`, used for both rewrites of an id; what it does is stated by PyStr.ReplaceAbsent, PyStr.ReplaceLeading and PyStr.ReplaceAroundSeparator |
| PyStr.ReplaceAbsent | functions/search_context.py:29 | `replace` leaves a string that does not contain the pattern unchanged |
| PyStr.ReplaceLeading | functions/search_context.py:30 | removing `frame_` from a stem that starts with it removes that prefix and then continues on the rest |
| PyStr.ReplaceAroundSeparator | functions/search_context.py:29 | a pattern without `/` is replaced independently on each side of a `/`; no match can straddle a path separator |
| Decimal.Value | functions/search_context.py:30 | `int()` on a digit string; Decimal.ValueOfDigits and Decimal.ValueIgnoresLeadingZeros state what it reads |
| Decimal.Padded | functions/generate_video_context.py:48 | `%04d`: always a digit string at least as wide as asked; Decimal.ValueOfPadded states that `int()` reads the number back |
| Decimal.CanonicalNumeral | functions/search_context.py:30 | a numeral without a leading zero is exactly `str()` of the value `int()` reads from it |
| Decimal.NumeralSpelling | functions/search_context.py:30 | every string `int()` accepts is the decimal spelling of its value after some leading zeros |
| Decimal.ValueOfDigits | functions/search_context.py:30 | `int()` of the decimal digits of `n` is `n` |
| Decimal.ValueIgnoresLeadingZeros | functions/search_context.py:30 | `int()` ignores leading zeros, so `0007` reads as 7 |
| Decimal.ValueOfPadded | functions/generate_video_context.py:48 | `int()` inverts ffmpeg's `%04d` numbering for every frame number, including ones wider than four digits |
| PyPath.Parent | functions/search_context.py:29 | `Path.parent`; PyPath.ParseJoinedPath states it for paths built from clean components |
| PyPath.Name | functions/search_context.py:30 | `Path.name`, the last component; PyPath.ParseJoinedPath states it |
| PyPath.Stem | functions/search_context.py:30 | `Path.stem`, the name without its last suffix; PyPath.StemOfFileName states it for `base.ext` |
| PyPath.Split | functions/search_context.py:29 | splitting on `/` gives at least one component, and no component contains `/` |
| PyPath.SplitJoin | functions/search_context.py:29 | splitting a `/`-joined list of separator-free components gives the list back |
| PyPath.ParseJoinedPath | functions/search_context.py:29-30 | for a path built from clean components, `Path.parent` is the path of all but the last component and `Path.name` is the last component, whether or not it is rooted |
| PyPath.StemOfFileName | functions/search_context.py:30 | `Path.stem` of a file `base.ext`, where `ext` has no dot, is `base` |
| PyPath.RFind | functions/search_context.py:30 | the position of the last occurrence of a character, or -1 exactly when it does not occur |
| FrameId.VideoKey | functions/search_context.py:29 | the dict key of an id, its parent with `video_context` replaced by `source`; FrameId.KeyOfFramePath states it for every frame description |
| FrameId.OrdinalText | functions/search_context.py:30 | the stem with `frame_` removed, the text `int()` reads; FrameId.OrdinalTextOfFramePath states it for every frame description |
| FrameId.FrameFileName | functions/generate_video_context.py:48 | ffmpeg's `frame_%04d` name with the `.txt` of line 95; FrameId.OrdinalTextOfFramePath states what `int()` reads back from it |
| FrameId.FramePath | functions/generate_video_context.py:136-142 | the id of a frame description, `<workspace>/video_context/<stem>/frame_%04d.txt`, as `build_video_index.py` lines 52 and 87-91 index it; FrameId.ParseFramePath states that it parses back to its source video and frame |
| FrameId.SourceKey | functions/generate_video_context.py:131-140 | `<workspace>/source/<stem>`, the source video without its extension; FrameId.KeyOfFramePath states that it is the key of every frame of that video |
| FrameId.SourceFile | functions/generate_video_context.py:139-141 | `<workspace>/source/<stem>.MOV`, the video the frames are extracted from; FrameId.VideoFileOfSourceKey states that the clip names it |
| FrameId.VideoFile | functions/search_context.py:47 | the key plus `.MOV`; FrameId.VideoFileOfSourceKey states that it is the source video |
| FrameId.ParseHit | functions/search_context.py:28-30 | an id parses exactly when its stem without `frame_` is a non-empty digit string; the hit's video is the id's key, the text `int()` read is the decimal spelling of the hit's ordinal after some leading zeros, and a failure names the id |
| FrameId.ParseHits | functions/search_context.py:26-30 | a list of ids parses exactly when every id does, to one hit per id in order; otherwise the error names the first id that fails, where the loop raises |
| FrameId.KeyOfFramePath | functions/search_context.py:29 | the key of any frame description is `<workspace>/source/<stem>`, the source video's path without its extension |
| FrameId.OrdinalTextOfFramePath | functions/search_context.py:30 | the text `int()` reads from a frame description's id is the `%04d` rendering of its frame number |
| FrameId.ParseFramePath | functions/search_context.py:28-30 | every frame description id parses to its source video key and its frame number |
| FrameId.VideoFileOfSourceKey | functions/search_context.py:47 | the key plus `.MOV` is the path of the source video the frames were extracted from |
| Selection.FirstMax | functions/search_context.py:41-45 | the "strictly larger than the best so far" scan returns none when every count is 0, and otherwise the first index of the largest count |
| Selection.FirstMaxStep | functions/search_context.py:44-45 | one loop step keeps that meaning: a new candidate takes over exactly when its count beats the best so far |
| Selection.FirstMaxUnique | functions/search_context.py:44 | at most one index meets that description, so the tie-break is determined |
| Occupancy.Sum | functions/search_context.py:43 | Python's `sum()`; Occupancy.HistogramSum and Occupancy.RangeSum state what it adds up over the histogram |
| Occupancy.Count | functions/search_context.py:37-39 | the number of hits on frames `lo` to `hi - 1`; Occupancy.CountIsMultiplicity and Occupancy.CountSplit state it |
| Occupancy.Histogram | functions/search_context.py:37-39 | the buffer of lines 37-39; Occupancy.BuildHistogram states that the loop builds it, and Occupancy.HistogramSum and Occupancy.RangeSum what it holds |
| Occupancy.MaxOf | functions/search_context.py:37 | `max` returns one of the ordinals, and no ordinal exceeds it |
| Occupancy.BuildHistogram | functions/search_context.py:37-39 | the buffer has `max + 1` slots, slot `o` holds the number of hits on frame `o`, and the slots sum to the number of hits |
| Occupancy.HistogramSum | functions/search_context.py:37-39 | the histogram's slots sum to the number of hits |
| Occupancy.RangeSum | functions/search_context.py:37-43 | slots `a..b` of the histogram together hold exactly the hits on frames `a` to `b - 1` |
| Occupancy.CountIsMultiplicity | functions/search_context.py:38-39 | a slot's count is the multiplicity of that frame among the ordinals |
| Occupancy.CountSplit | functions/search_context.py:43 | counting hits over adjacent ranges adds up |
| Window.WindowSum | functions/search_context.py:43 | `sum(buffer[i:i+interval])` for any integer `interval`, with Python's slice rules; Window.WindowCountsHits states that, for `interval >= 0`, it is the number of hits in the window |
| Window.WrittenStop | functions/search_context.py:42 | the end of line 42's `range`; for `interval >= 0`, Clips.HeaviestIsHeaviestClip and HeavyRange.ClipIsHeaviest state which clips it lets the scan reach |
| Window.FullStop | functions/search_context.py:42 | the corrected end, one past line 42's; HeavyRange.CorrectedClipIsHeaviest (for `interval >= 0`) and Clips.FullScanHoldsAnOrdinal (for `interval >= 1`) state what it reaches |
| Window.PySlice | functions/search_context.py:43 | an in-range slice is the plain subsequence, and no slice is longer than the list |
| Window.HeaviestStart | functions/search_context.py:41-45 | the scan's result is 0 when every scanned window sums to 0; otherwise it is a scanned start with a positive sum, no scanned window is heavier, and every earlier one is strictly lighter |
| Window.SlideWindow | functions/search_context.py:41-45 | the loop of lines 41-45 ends with that start, and with `count` equal to its window's sum (0 for start 0) |
| Window.FirstMaxIsHeaviest | functions/search_context.py:41-45 | the selection rule over the scanned window sums, shifted by one, is the heaviest start |
| Window.HeaviestUnique | functions/search_context.py:44 | at most one start is heaviest, so the strict `>` fixes the earliest on a tie |
| Window.HeaviestStartIs | functions/search_context.py:41-45 | any start that is heaviest over the scanned windows is the scan's result |
| Window.WindowCountsHits | functions/search_context.py:37-43 | for `interval >= 0`, a window that fits in the buffer sums to the number of hits on its seconds |
| Grouping.Videos | functions/search_context.py:26-33 | the dict's keys hold no duplicates and are exactly the hits' videos |
| Grouping.OrdinalsOf | functions/search_context.py:26-30 | a video's list holds exactly the ordinals of that video's hits, and is never longer than the hits; its order and multiplicity are stated by Grouping.OrdinalsInHitOrder |
| Grouping.Positions | functions/search_context.py:27-30 | the indices of a video's hits: increasing, each index a hit on that video, and every hit on it included |
| Grouping.OrdinalsInHitOrder | functions/search_context.py:26-30 | `frames[v]` holds one ordinal per hit on `v`, in hit order: entry `k` is the ordinal of the `k`-th hit on `v` |
| Grouping.HitCountIsLength | functions/search_context.py:30-34 | the length of `frames[v]`, which line 34 compares, is the number of hits on `v` |
| Grouping.VideosInFirstHitOrder | functions/search_context.py:26-33 | the dict iterates videos in the order of their first hit |
| Grouping.GroupsAreNonEmpty | functions/search_context.py:26-30 | every video in the dict has at least one ordinal, and any hit puts a video there |
| Grouping.SelectAsWritten | functions/search_context.py:32-35 | as written, the choice fails with the line-34 type error exactly when there are two or more videos; otherwise every hit belongs to the chosen video |
| Grouping.SelectMostHits | functions/search_context.py:32-35 | as intended, the choice has at least as many hits as any video, and strictly more than every video that comes before it |
| Grouping.PickIsFirstMost | functions/search_context.py:32-35 | the selection rule over the per-video counts picks a video with the most hits and strictly more than every earlier video |
| Grouping.SelectionsAgree | functions/search_context.py:32-35 | whenever the code as written succeeds, it picks the same video as the intended choice |
| Grouping.SingleVideoOrdinals | functions/search_context.py:37-38 | when all hits share one video, that video's list is every hit's ordinal, in order |
| Clips.HeaviestIsHeaviestClip | functions/search_context.py:41-45 | for `interval >= 0`, read over the hits, the chosen clip holds the most hits among the scanned clips, and strictly more than every earlier one; start 0 means no scanned clip holds a hit |
| Clips.FullScanHoldsAnOrdinal | functions/search_context.py:41-45 | when the scan also reaches the last window, the chosen clip contains at least one hit |
| HeavyRange.ClipStart | functions/search_context.py:37-45 | where the scan settles over the histogram of a group; HeavyRange.ClipStartIs and HeavyRange.ClipIsHeaviest state it |
| HeavyRange.ClipOver | functions/search_context.py:37-48 | over a non-empty group, the clip is the group's video plus `.MOV`, exactly `interval` long, and starts at 0 or in `1 .. max - interval` (one more with the last window scanned); an empty group is `NoMatches` |
| HeavyRange.RangeOfHits | functions/search_context.py:26-48 | as written, the search fails exactly when there are no hits (`NoMatches`) or two or more videos (the line-34 type error, `MixedVideos`); otherwise the clip names the video of the hits, is `interval` long, and starts at 0 or in `1 .. max - interval` |
| HeavyRange.FindHeavyRange | functions/search_context.py:19-48 | on match ids, as written, the search succeeds exactly when there is a match, every id parses, and all ids share the first one's key; the clip names that key plus `.MOV` and is `interval` long; otherwise it fails with the error of the first malformed id, with `NoMatches` when there is no match, and with the line-34 type error when the ids all parse but name two keys |
| HeavyRange.RangeOfHitsCorrected | functions/search_context.py:26-48 | corrected, the search fails only without hits, and names the video with the most hits |
| HeavyRange.FindHeavyRangeCorrected | functions/search_context.py:19-48 | corrected, on match ids, the search succeeds exactly when there is a match and every id parses |
| HeavyRange.OneVideoIffSameKey | functions/search_context.py:33-35 | the dict has a single key exactly when every hit has the first hit's video |
| HeavyRange.RangeOfOneVideo | functions/search_context.py:32-48 | for hits of one video, the search as written is that video's clip starting where the scan settles over the histogram of all the ordinals |
| HeavyRange.ClipStartIs | functions/search_context.py:41-45 | any start that is heaviest over the windows line 42 scans is the clip's start |
| HeavyRange.CorrectedRangeOfOneVideo | functions/search_context.py:32-48 | for hits of one video, the corrected search is the same clip but also scans the last window |
| HeavyRange.MostHitsOfOneVideo | functions/search_context.py:32-35 | with one video, the intended choice is that video |
| HeavyRange.ClipIsHeaviest | functions/search_context.py:32-45 | as written, for `interval >= 0` and hits of one video, the search succeeds, and the clip holds the most hits among clips starting at `1 .. max - interval`, with the earliest winning a tie; start 0 means none of them holds a hit |
| HeavyRange.CorrectedClipIsHeaviest | functions/search_context.py:41-45 | corrected, for `interval >= 0`, the same holds over clips starting at `1 .. max - interval + 1` of the chosen video |
| HeavyRange.CorrectedClipHoldsAHit | functions/search_context.py:42 | corrected, with windows at least one second long, the clip contains a hit of the chosen video |
| HeavyRange.ParsedIds | functions/search_context.py:26-30 | ids that each parse to a given hit parse together to the list of those hits |
| HeavyRange.FindHeavyRangeOfOneVideo | functions/search_context.py:19-48 | ids that parse to hits of one video give the search over those hits, which succeeds and names that video |
| HeavyRange.FramePathsOfOneVideo | functions/build_video_index.py:52 | the ids indexed for the frame descriptions of one video yield a clip of that video's source file |
| Scenarios.ExampleHistogram | functions/search_context.py:37-39 | the ordinals `[1,1,2,3,3,3,4,10]` give the buffer `[0,2,1,3,1,0,0,0,0,0,1]` |
| Scenarios.ExampleScan | functions/search_context.py:41-45 | over that buffer with windows of 4, the scan settles on start 1 (sum 7) |
| Scenarios.ExampleClip | functions/search_context.py:19-48 | eight hits of `clip` on those frames give `clip.MOV` from 1 to 5 |
| Scenarios.NothingScannedStartsAtZero | functions/search_context.py:41-42 | a lone hit on frame 3 with windows of 4 leaves line 42's `range` empty, so the clip is 0 to 4; scanning the last window too gives the same clip |
| Scenarios.LastWindowSkipped | functions/search_context.py:42 | a lone hit on frame 5 with windows of 4 gives 0 to 4 as written, a clip without the hit; corrected, it gives 2 to 6 |
| Scenarios.MixedVideosRaise | functions/search_context.py:34-35 | hits of videos `a`, `b`, `b` raise as written; corrected, they give `b.MOV` |

## Left out

- `main` (lines 51-101): the OpenAI embedding call, the Pinecone query, printing, and the commented-out ffmpeg extraction. These are network and process I/O. The model starts from the match ids.
- Match fields other than `"id"` (score, metadata): the aggregator reads only `item["id"]`.
- The indexing and generation scripts (`build_video_index.py`, `build_audio_index.py`, `generate_video_context.py`, `generate_description.py`, `generate_audio_context.py`, `generate_script_queries.py`, `__init__.py`): network calls, ffmpeg, moviepy, async I/O and logging. Only the folder layout they produce is modelled, as `FrameId.FramePath`.
- Python `int()` leniency: signs, surrounding whitespace, `_` separators and non-ASCII digits. Only ASCII digit strings parse, so ordinals are naturals. Anything else is `MalformedOrdinal`, where Python would sometimes accept it (for example a negative ordinal, which would then index the buffer from the end).
- Windows `pathlib` semantics (drives, backslashes): paths are POSIX.
- Ids whose parent path is not a plain folder path (`.` components, repeated or trailing `/`), or whose workspace or stem names themselves contain `video_context`: the parsing functions handle them, but the round-trip lemmas are stated only for clean, plain components.
- Hit-count reading of a negative `interval`: Python accepts any integer, and the window scan (`Window.HeaviestStart`, `Window.SlideWindow`) is modelled for every integer, but with a negative length a slice wraps and its sum no longer counts the hits on the clip's seconds. The lemmas that read window sums as hits on seconds assume `interval >= 0`.
- Float scores and rank order: the aggregator ignores them.
- `HeavyRange.FindHeavyRangeCorrected`: states only that the call succeeds and the clip length, not the chosen video's name over ids. The video is stated over hits by `HeavyRange.RangeOfHitsCorrected`.

## Findings

| source | as written | input that shows it | evidently intended | confidence | as-written member | corrected member |
|---|---|---|---|---|---|---|
| functions/search_context.py:35 | `videoCount = val` stores the list, so with a second video line 34 compares `int > list` and raises `TypeError` | hits of videos `a`, `b`, `b` | `videoCount = len(val)`: the first video with the most hits (`b`) | high; not executed | Scenarios.MixedVideosRaise | Grouping.SelectMostHits |
| functions/search_context.py:42 | `range(1, len(buffer) - interval)` never scans the last window that fits, `len(buffer) - interval` | a lone hit on frame 5, interval 4: the clip 0 to 4 holds no hit | `range(1, len(buffer) - interval + 1)`: the clip 2 to 6, which holds the hit | high; not executed | Scenarios.NothingScannedStartsAtZero | functions/search_context.py:41-42 | a lone hit on frame 3 with windows of 4 leaves line 42's `range` empty, so the clip is 0 to 4; scanning the last window too gives the same clip |
| Scenarios.LastWindowSkipped | HeavyRange.CorrectedClipHoldsAHit |


=== FILE: clips.dfy ===
/** The clip-level reading of the window scan: how many hits each clip
    holds, and that the chosen clip is the heaviest one. Line numbers
    refer to `functions/search_context.py`. */
module Clips {
  import opened Occupancy
  import opened Window

  /** The clip, stated over the hits: with `start` 0, no clip starting at
      `1 .. last` holds a hit; otherwise `start` is in `1 .. last`, its clip
      holds the most hits among those clips, and every earlier clip holds
      strictly fewer. */
  ghost predicate HeaviestClip(xs: seq<nat>, interval: int, last: int, start: int) {
    || (start == 0 && forall i :: 1 <= i <= last ==> HitsInClip(xs, i, interval) == 0)
    || (&& 1 <= start <= last
        && HitsInClip(xs, start, interval) > 0
        && (forall i :: 1 <= i <= last ==> HitsInClip(xs, i, interval) <= HitsInClip(xs, start, interval))
        && (forall i :: 1 <= i < start ==> HitsInClip(xs, i, interval) < HitsInClip(xs, start, interval)))
  }

  /** The number of hits on seconds `start .. start + interval - 1`. */
  function HitsInClip(xs: seq<nat>, start: int, interval: int): nat
  {
    Count(xs, start, start + interval)
  }

  /** The buffer-level scan outcome is the hit-level one when every scanned
      window fits in the buffer. */
  lemma HeaviestIsHeaviestClip(xs: seq<nat>, interval: int, stop: int, start: int)
    requires |xs| > 0 && interval >= 0
    requires stop <= |Histogram(xs)| - interval + 1
    requires Heaviest(Histogram(xs), interval, stop, start)
    ensures HeaviestClip(xs, interval, stop - 1, start)
  {
    var buffer := Histogram(xs);
    forall i | 1 <= i < stop
      ensures WindowSum(buffer, i, interval) == HitsInClip(xs, i, interval)
    {
      WindowCountsHits(xs, i, interval);
    }
    if start == 0 {
      assert forall i :: 1 <= i < stop ==> WindowSum(buffer, i, interval) == 0;
    } else {
      assert WindowSum(buffer, start, interval) == HitsInClip(xs, start, interval);
    }
  }

  lemma {:induction false} CountMember(xs: seq<nat>, k: nat, lo: int, hi: int)
    requires k < |xs| && lo <= xs[k] < hi
    ensures Count(xs, lo, hi) > 0
    decreases |xs|
  {
    if k < |xs| - 1 {
      CountMember(xs[..|xs| - 1], k, lo, hi);
    }
  }

  /** When the scan also reaches the last window, the chosen clip holds at
      least one hit, provided windows are at least one second long: either
      some scanned window holds a hit (the last one holds the largest
      ordinal), or nothing is scanned and the clip from 0 covers every
      ordinal. */
  lemma FullScanHoldsAnOrdinal(xs: seq<nat>, interval: int, start: int)
    requires |xs| > 0 && interval >= 1
    requires HeaviestClip(xs, interval, MaxOf(xs) - interval + 1, start)
    ensures exists j :: 0 <= j < |xs| && start <= xs[j] < start + interval
  {
    if MaxOf(xs) - interval + 1 >= 1 {
      LastClipHoldsMax(xs, interval, start);
    } else {
      NothingScanned(xs, interval, start);
    }
  }

  /** When no window is scanned the clip starts at 0 and, being longer
      than the largest ordinal, holds the first one. */
  lemma NothingScanned(xs: seq<nat>, interval: int, start: int)
    requires |xs| > 0 && MaxOf(xs) - interval + 1 < 1
    requires HeaviestClip(xs, interval, MaxOf(xs) - interval + 1, start)
    ensures start <= xs[0] < start + interval
  {
  }

  /** The last clip holds the largest ordinal, so the heaviest clip is not
      empty either. */
  lemma LastClipHoldsMax(xs: seq<nat>, interval: int, start: int)
    requires |xs| > 0 && interval >= 1 && MaxOf(xs) - interval + 1 >= 1
    requires HeaviestClip(xs, interval, MaxOf(xs) - interval + 1, start)
    ensures exists j :: 0 <= j < |xs| && start <= xs[j] < start + interval
  {
    var last := MaxOf(xs) - interval + 1;
    LastClipNonEmpty(xs, interval, last);
    HeavierThanNonEmpty(xs, interval, last, start, last);
    CountWitness(xs, start, start + interval);
  }

  /** The clip ending on the largest ordinal holds it. */
  lemma LastClipNonEmpty(xs: seq<nat>, interval: int, last: int)
    requires |xs| > 0 && interval >= 1 && last == MaxOf(xs) - interval + 1
    ensures Count(xs, last, last + interval) > 0
  {
    var k :| 0 <= k < |xs| && xs[k] == MaxOf(xs);
    CountMember(xs, k, last, last + interval);
  }

  /** If some clip among `1 .. last` holds a hit, so does the heaviest. */
  lemma HeavierThanNonEmpty(xs: seq<nat>, interval: int, last: int, start: int, i: int)
    requires 1 <= i <= last && Count(xs, i, i + interval) > 0
    requires HeaviestClip(xs, interval, last, start)
    ensures Count(xs, start, start + interval) > 0
  {
    assert HitsInClip(xs, i, interval) > 0;
  }
}

=== FILE: decimal.dfy ===
/** Decimal numerals: Python's `int()` on strings of ASCII digits, and the
    zero-padded `%04d` spelling that names extracted frames
    (`functions/generate_video_context.py`, line 48). Line numbers elsewhere
    refer to `functions/search_context.py`. */
module Decimal {

  predicate IsDigit(c: char) {
    '0' <= c <= '9'
  }

  predicate AllDigits(s: string) {
    forall k :: 0 <= k < |s| ==> IsDigit(s[k])
  }

  /** The strings this model lets `int()` accept: one or more ASCII digits. */
  predicate IsNumeral(s: string) {
    |s| > 0 && AllDigits(s)
  }

  function DigitValue(c: char): nat
    requires IsDigit(c)
  {
    c as int - '0' as int
  }

  function DigitChar(d: nat): char
    requires d < 10
  {
    ('0' as int + d) as char
  }

  /** `int(s)` for a string of digits; leading zeros are allowed. */
  function Value(s: string): nat
    requires AllDigits(s)
    decreases |s|
  {
    if |s| == 0 then 0 else 10 * Value(s[..|s| - 1]) + DigitValue(s[|s| - 1])
  }

  /** `str(n)`: the shortest decimal spelling of `n`. */
  function Digits(n: nat): (s: string)
    ensures |s| >= 1 && AllDigits(s)
    decreases n
  {
    if n < 10 then [DigitChar(n)] else Digits(n / 10) + [DigitChar(n % 10)]
  }

  function Zeros(k: nat): (s: string)
    ensures |s| == k && AllDigits(s)
  {
    if k == 0 then "" else "0" + Zeros(k - 1)
  }

  /** `"%0{width}d" % n`: `str(n)` left-padded with zeros to at least `width`
      characters; wider numbers keep all their digits. */
  function Padded(n: nat, width: nat): (s: string)
    ensures IsNumeral(s) && |s| >= width
  {
    var d := Digits(n);
    if |d| >= width then d else Zeros(width - |d|) + d
  }

  /** Reading back the decimal spelling of `n` gives `n`. */
  lemma {:induction false} ValueOfDigits(n: nat)
    ensures Value(Digits(n)) == n
    decreases n
  {
    if n >= 10 {
      ValueOfDigits(n / 10);
      var s := Digits(n);
      assert s[..|s| - 1] == Digits(n / 10);
    }
  }

  /** Leading zeros do not change the value `int()` reads. */
  lemma {:induction false} ValueIgnoresLeadingZeros(k: nat, s: string)
    requires AllDigits(s)
    ensures Value(Zeros(k) + s) == Value(s)
    decreases |s|
  {
    var z := Zeros(k);
    if |s| == 0 {
      assert z + s == z;
      ValueOfZeros(k);
    } else {
      var t := z + s;
      assert t[..|t| - 1] == z + s[..|s| - 1];
      ValueIgnoresLeadingZeros(k, s[..|s| - 1]);
    }
  }

  lemma {:induction false} ValueOfZeros(k: nat)
    ensures Value(Zeros(k)) == 0
  {
    if k > 0 {
      var z := Zeros(k);
      assert z[..|z| - 1] == Zeros(k - 1) by {
        ZerosAreZero(k);
        ZerosAreZero(k - 1);
      }
      ValueOfZeros(k - 1);
      ZerosAreZero(k);
    }
  }

  lemma {:induction false} ZerosAreZero(k: nat)
    ensures forall i :: 0 <= i < k ==> Zeros(k)[i] == '0'
  {
    if k > 0 {
      ZerosAreZero(k - 1);
    }
  }

  /** `int("%0{width}d" % n) == n`: padding is undone by parsing. */
  lemma ValueOfPadded(n: nat, width: nat)
    ensures Value(Padded(n, width)) == n
  {
    ValueOfDigits(n);
    var d := Digits(n);
    if |d| < width {
      assert Padded(n, width) == Zeros(width - |d|) + d;
      ValueIgnoresLeadingZeros(width - |d|, d);
    } else {
      assert Padded(n, width) == d;
    }
  }

  /** A numeral without a leading zero (or the lone digit `0`) is exactly
      the decimal spelling of its value. */
  lemma {:induction false} CanonicalNumeral(s: string)
    requires IsNumeral(s) && (|s| == 1 || s[0] != '0')
    ensures s == Digits(Value(s))
    decreases |s|
  {
    var c := s[|s| - 1];
    if |s| == 1 {
      assert s == [DigitChar(DigitValue(c))];
    } else {
      var front := s[..|s| - 1];
      assert front[0] == s[0];
      CanonicalNumeral(front);
      var v := Value(front);
      assert Digits(0) == "0";
      assert front != "0";
      assert Value(s) == 10 * v + DigitValue(c);
      assert Value(s) / 10 == v && Value(s) % 10 == DigitValue(c);
      assert s == front + [DigitChar(DigitValue(c))];
    }
  }

  /** Every numeral `int()` accepts is the decimal spelling of its value
      after some number of leading zeros. */
  lemma {:induction false} NumeralSpelling(s: string)
    requires IsNumeral(s)
    ensures exists k: nat :: s == Zeros(k) + Digits(Value(s))
    decreases |s|
  {
    if |s| == 1 || s[0] != '0' {
      CanonicalNumeral(s);
      assert s == Zeros(0) + Digits(Value(s));
    } else {
      NumeralSpelling(s[1..]);
      var k: nat :| s[1..] == Zeros(k) + Digits(Value(s[1..]));
      LeadingZero(s, k);
    }
  }

  /** One more leading zero: the spelling keeps its digits and gains a zero. */
  lemma LeadingZero(s: string, k: nat)
    requires IsNumeral(s) && |s| > 1 && s[0] == '0'
    requires s[1..] == Zeros(k) + Digits(Value(s[1..]))
    ensures s == Zeros(k + 1) + Digits(Value(s))
  {
    var rest := s[1..];
    var z := Zeros(1);
    assert z == "0";
    assert AllDigits(rest);
    assert s == z + rest;
    ValueIgnoresLeadingZeros(1, rest);
    assert Value(s) == Value(rest);
    assert Zeros(k + 1) == "0" + Zeros(k);
  }
}

=== FILE: errors.dfy ===
/** Failure-compatible result type and the ways the range search can fail.
    Line numbers refer to `functions/search_context.py`. */
module Errors {

  /** The exceptions the range search can raise, by the line that raises them. */
  datatype Failure =
    /** `int()` rejects the stem of a match id (ValueError at line 30). */
    | MalformedOrdinal(id: string)
    /** A second video group reaches the comparison `len(val) > videoCount`
        after `videoCount` was bound to a list (TypeError at line 34). */
    | MixedVideos
    /** `max()` over the empty group of the video named "" (ValueError at line 37). */
    | NoMatches

  datatype Result<+T, +E> = Ok(value: T) | Err(error: E) {

    predicate IsFailure() {
      Err?
    }

    function PropagateFailure<U>(): Result<U, E>
      requires Err?
    {
      Err(error)
    }

    function Extract(): T
      requires Ok?
    {
      value
    }
  }

  /** A loop over results that stops at the first failure: every value in
      order when all succeed, otherwise the error of the first failure. */
  function Collect<T, E>(rs: seq<Result<T, E>>): (r: Result<seq<T>, E>)
    ensures r.Ok? <==> forall k :: 0 <= k < |rs| ==> rs[k].Ok?
    ensures r.Ok? ==> |r.value| == |rs| && forall k :: 0 <= k < |rs| ==> rs[k] == Ok(r.value[k])
    ensures r.Err? ==> exists k :: && 0 <= k < |rs| && rs[k].Err? && r.error == rs[k].error
                                   && forall j :: 0 <= j < k ==> rs[j].Ok?
  {
    if |rs| == 0 then Ok([])
    else
      var head :- rs[0];
      var tail :- Collect(rs[1..]);
      Ok([head] + tail)
  }
}

=== FILE: frame_id.dfy ===
/** Reading a match id (lines 28-30 of `functions/search_context.py`, to
    which all bare line numbers here refer) and the folder layout that
    produces those ids. An id is the path of a frame
    description, `<workspace>/video_context/<video stem>/frame_NNNN.txt`;
    the range search keys it by the path of the source video without its
    extension, `<workspace>/source/<video stem>`, and places it at second
    `NNNN` of the histogram. */
module FrameId {
  import opened Errors
  import opened PyStr
  import opened PyPath
  import opened Decimal

  /** One retrieved frame: the video it belongs to and its frame ordinal. */
  datatype Hit = Hit(video: string, ordinal: nat)

  const ContextFolder: string := "video_context"
  const SourceFolder: string := "source"
  const FramePrefix: string := "frame_"
  const DescriptionSuffix: string := ".txt"
  const VideoSuffix: string := ".MOV"
  /** ffmpeg writes frames as `frame_%04d`. */
  const FrameDigits: nat := 4

  /** The grouping key of an id: its parent folder with every
      `video_context` replaced by `source` (line 29). */
  function VideoKey(id: string): string
  {
    Replace(Parent(id), ContextFolder, SourceFolder)
  }

  /** The text `int()` reads: the stem with every `frame_` removed (line 30). */
  function OrdinalText(id: string): string
  {
    Replace(Stem(id), FramePrefix, "")
  }

  /** Lines 29-30 for one id: the hit it denotes, or the ValueError that
      `int()` raises on a stem that is not a numeral. */
  function ParseHit(id: string): (r: Result<Hit, Failure>)
    ensures r.Ok? <==> IsNumeral(OrdinalText(id))
    ensures r.Ok? ==> r.value.video == VideoKey(id)
    ensures r.Err? ==> r.error == MalformedOrdinal(id)
    ensures r.Ok? ==> exists k: nat :: OrdinalText(id) == Zeros(k) + Digits(r.value.ordinal)
  {
    var text := OrdinalText(id);
    if IsNumeral(text) then
      NumeralSpelling(text);
      Ok(Hit(VideoKey(id), Value(text)))
    else Err(MalformedOrdinal(id))
  }

  /** `ids[k]` is the first id that does not parse: the loop of lines
      27-30 raises there. */
  predicate FirstFailure(ids: seq<string>, k: int) {
    && 0 <= k < |ids|
    && ParseHit(ids[k]).Err?
    && forall j :: 0 <= j < k ==> ParseHit(ids[j]).Ok?
  }

  /** Lines 27-30 over all matches, in order: the first id that does not
      parse raises. */
  function ParseHits(ids: seq<string>): (r: Result<seq<Hit>, Failure>)
    ensures r.Ok? <==> forall k :: 0 <= k < |ids| ==> ParseHit(ids[k]).Ok?
    ensures r.Ok? ==> |r.value| == |ids|
    ensures r.Ok? ==> forall k :: 0 <= k < |ids| ==> r.value[k] == ParseHit(ids[k]).value
    ensures r.Err? ==> exists k :: FirstFailure(ids, k) && r.error == MalformedOrdinal(ids[k])
  {
    var rs := seq(|ids|, k requires 0 <= k < |ids| => ParseHit(ids[k]));
    assert forall k :: 0 <= k < |ids| ==> rs[k] == ParseHit(ids[k]);
    CollectedAll(ids, rs);
    CollectedValues(ids, rs);
    CollectedFailure(ids, rs);
    Collect(rs)
  }

  /** The loop finishes exactly when every id parses. */
  lemma CollectedAll(ids: seq<string>, rs: seq<Result<Hit, Failure>>)
    requires |rs| == |ids| && forall k :: 0 <= k < |ids| ==> rs[k] == ParseHit(ids[k])
    ensures Collect(rs).Ok? <==> forall k :: 0 <= k < |ids| ==> ParseHit(ids[k]).Ok?
  {
  }

  /** When the loop finishes, it holds one hit per id, in order. */
  lemma CollectedValues(ids: seq<string>, rs: seq<Result<Hit, Failure>>)
    requires |rs| == |ids| && forall k :: 0 <= k < |ids| ==> rs[k] == ParseHit(ids[k])
    ensures Collect(rs).Ok? ==> |Collect(rs).value| == |ids|
    ensures Collect(rs).Ok? ==> forall k :: 0 <= k < |ids| ==> Collect(rs).value[k] == ParseHit(ids[k]).value
  {
  }

  /** When the loop raises, it raises at the first id that does not parse. */
  lemma CollectedFailure(ids: seq<string>, rs: seq<Result<Hit, Failure>>)
    requires |rs| == |ids| && forall k :: 0 <= k < |ids| ==> rs[k] == ParseHit(ids[k])
    ensures Collect(rs).Err? ==> exists k :: FirstFailure(ids, k) && Collect(rs).error == MalformedOrdinal(ids[k])
  {
    if Collect(rs).Err? {
      var k :| && 0 <= k < |rs| && rs[k].Err? && Collect(rs).error == rs[k].error
               && forall j :: 0 <= j < k ==> rs[j].Ok?;
      FailureAt(ids, rs, k);
    }
  }

  lemma FailureAt(ids: seq<string>, rs: seq<Result<Hit, Failure>>, k: int)
    requires |rs| == |ids| && forall n :: 0 <= n < |ids| ==> rs[n] == ParseHit(ids[n])
    requires 0 <= k < |rs| && rs[k].Err? && forall j :: 0 <= j < k ==> rs[j].Ok?
    ensures FirstFailure(ids, k) && rs[k].error == MalformedOrdinal(ids[k])
  {
    assert rs[k] == ParseHit(ids[k]);
  }

  /** The file name of the description of frame `n`: `frame_%04d.txt`. */
  function FrameFileName(n: nat): string
  {
    FramePrefix + Padded(n, FrameDigits) + DescriptionSuffix
  }

  /** The components of the folder holding the descriptions of video
      `stem`: `<workspace>/video_context/<stem>`. */
  function ContextDir(workspace: seq<string>, stem: string): seq<string>
  {
    workspace + [ContextFolder, stem]
  }

  /** The components of `<workspace>/source/<stem>`. */
  function SourceDir(workspace: seq<string>, stem: string): seq<string>
  {
    workspace + [SourceFolder, stem]
  }

  /** Where the description of frame `n` of video `stem` lives, for a
      workspace given as its path components. */
  function FramePath(rooted: bool, workspace: seq<string>, stem: string, n: nat): string
  {
    Anchor(rooted) + Join(ContextDir(workspace, stem) + [FrameFileName(n)])
  }

  /** The source video path without its extension. */
  function SourceKey(rooted: bool, workspace: seq<string>, stem: string): string
  {
    Anchor(rooted) + Join(SourceDir(workspace, stem))
  }

  /** The source video file `<workspace>/source/<stem>.MOV`, the file the
      frames were extracted from. */
  function SourceFile(rooted: bool, workspace: seq<string>, stem: string): string
  {
    Anchor(rooted) + Join(workspace + [SourceFolder, stem + VideoSuffix])
  }

  /** The clip's video name (line 47): the key with `.MOV` appended. */
  function VideoFile(key: string): string
  {
    key + VideoSuffix
  }

  /** The workspace and stem components are plain folder names that do
      not themselves contain `video_context`. */
  predicate PlainName(part: string) {
    Clean(part) && !Contains(part, ContextFolder)
  }

  lemma ReplaceJoin(parts: seq<string>, p: string, r: string)
    requires |p| > 0 && '/' !in p
    ensures Replace(Join(parts), p, r) == Join(seq(|parts|, k requires 0 <= k < |parts| => Replace(parts[k], p, r)))
    decreases |parts|
  {
    var rs := seq(|parts|, k requires 0 <= k < |parts| => Replace(parts[k], p, r));
    if |parts| == 0 {
      assert Replace("", p, r) == "";
    } else if |parts| >= 2 {
      ReplaceAroundSeparator(parts[0], '/', Join(parts[1..]), p, r);
      ReplaceJoin(parts[1..], p, r);
      assert rs[1..] == seq(|parts[1..]|, k requires 0 <= k < |parts[1..]| => Replace(parts[1..][k], p, r));
    }
  }

  /** The key of a frame description's id is the path of its source video
      without extension. */
  lemma KeyOfFramePath(rooted: bool, workspace: seq<string>, stem: string, n: nat)
    requires forall k :: 0 <= k < |workspace| ==> PlainName(workspace[k])
    requires PlainName(stem)
    ensures VideoKey(FramePath(rooted, workspace, stem, n)) == SourceKey(rooted, workspace, stem)
  {
    ParentOfFramePath(rooted, workspace, stem, n);
    SourceOfContextDir(rooted, workspace, stem);
  }

  /** The parent of a frame description's id is its `video_context`
      folder, and its name is the description's file name. */
  lemma ParentOfFramePath(rooted: bool, workspace: seq<string>, stem: string, n: nat)
    requires forall k :: 0 <= k < |workspace| ==> Clean(workspace[k])
    requires Clean(stem)
    ensures Parent(FramePath(rooted, workspace, stem, n)) == Anchor(rooted) + Join(ContextDir(workspace, stem))
    ensures Name(FramePath(rooted, workspace, stem, n)) == FrameFileName(n)
  {
    var dir := ContextDir(workspace, stem);
    var parts := dir + [FrameFileName(n)];
    FramePartsClean(workspace, stem, n);
    assert parts[..|parts| - 1] == dir;
    ParseJoinedPath(rooted, parts);
  }

  /** The file name of a frame description is a clean path component. */
  lemma FrameFileNameClean(n: nat)
    ensures Clean(FrameFileName(n))
  {
    var digits := Padded(n, FrameDigits);
    var name := FrameFileName(n);
    assert name == FramePrefix + digits + DescriptionSuffix;
    forall i | 0 <= i < |name|
      ensures name[i] != '/'
    {
      if 6 <= i < 6 + |digits| {
        assert name[i] == digits[i - 6];
        assert IsDigit(digits[i - 6]);
      }
    }
    assert name[0] == 'f';
  }

  /** All components of a frame description's id are clean. */
  lemma FramePartsClean(workspace: seq<string>, stem: string, n: nat)
    requires forall k :: 0 <= k < |workspace| ==> Clean(workspace[k])
    requires Clean(stem)
    ensures var parts := ContextDir(workspace, stem) + [FrameFileName(n)];
            forall k :: 0 <= k < |parts| ==> Clean(parts[k])
  {
    FrameFileNameClean(n);
    assert '/' !in ContextFolder;
  }

  /** Replacing `video_context` by `source` in the frame folder gives the
      source video path without extension. */
  lemma SourceOfContextDir(rooted: bool, workspace: seq<string>, stem: string)
    requires forall k :: 0 <= k < |workspace| ==> PlainName(workspace[k])
    requires PlainName(stem)
    ensures Replace(Anchor(rooted) + Join(ContextDir(workspace, stem)), ContextFolder, SourceFolder)
            == SourceKey(rooted, workspace, stem)
  {
    var dir := ContextDir(workspace, stem);
    var src := SourceDir(workspace, stem);
    assert '/' !in ContextFolder;
    ReplaceJoin(dir, ContextFolder, SourceFolder);
    var replaced := seq(|dir|, k requires 0 <= k < |dir| => Replace(dir[k], ContextFolder, SourceFolder));
    forall k | 0 <= k < |dir|
      ensures replaced[k] == src[k]
    {
      if k == |workspace| {
        ReplaceLeading(ContextFolder, SourceFolder, "");
        assert ContextFolder + "" == ContextFolder;
      } else {
        ReplaceAbsent(dir[k], ContextFolder, SourceFolder);
      }
    }
    assert replaced == src;
    if rooted {
      ReplaceAroundSeparator("", '/', Join(dir), ContextFolder, SourceFolder);
      assert "" + "/" + Join(dir) == Anchor(rooted) + Join(dir);
    } else {
      assert Anchor(rooted) + Join(dir) == Join(dir);
    }
  }

  /** The ordinal text of a frame description's id is its zero-padded
      frame number. */
  lemma OrdinalTextOfFramePath(rooted: bool, workspace: seq<string>, stem: string, n: nat)
    requires forall k :: 0 <= k < |workspace| ==> PlainName(workspace[k])
    requires PlainName(stem)
    ensures OrdinalText(FramePath(rooted, workspace, stem, n)) == Padded(n, FrameDigits)
  {
    var digits := Padded(n, FrameDigits);
    ParentOfFramePath(rooted, workspace, stem, n);
    assert FrameFileName(n) == (FramePrefix + digits) + "." + "txt";
    StemOfFileName(FramePath(rooted, workspace, stem, n), FramePrefix + digits, "txt");
    ReplaceLeading(FramePrefix, "", digits);
    FirstCharAbsent(digits, FramePrefix);
    ReplaceAbsent(digits, FramePrefix, "");
  }

  /** Round trip: the id of the description of frame `n` of a video parses
      to a hit on that video's source path with ordinal `n`. */
  lemma ParseFramePath(rooted: bool, workspace: seq<string>, stem: string, n: nat)
    requires forall k :: 0 <= k < |workspace| ==> PlainName(workspace[k])
    requires PlainName(stem)
    ensures ParseHit(FramePath(rooted, workspace, stem, n)) == Ok(Hit(SourceKey(rooted, workspace, stem), n))
  {
    var id := FramePath(rooted, workspace, stem, n);
    KeyOfFramePath(rooted, workspace, stem, n);
    OrdinalTextOfFramePath(rooted, workspace, stem, n);
    ValueOfPadded(n, FrameDigits);
    assert IsNumeral(OrdinalText(id));
  }

  /** The clip name built from a source key is the path of the source video
      file `<workspace>/source/<stem>.MOV`. */
  lemma VideoFileOfSourceKey(rooted: bool, workspace: seq<string>, stem: string)
    ensures VideoFile(SourceKey(rooted, workspace, stem)) == SourceFile(rooted, workspace, stem)
  {
    JoinLast(workspace + [SourceFolder], stem, VideoSuffix);
    assert workspace + [SourceFolder] + [stem] == SourceDir(workspace, stem);
    assert workspace + [SourceFolder] + [stem + VideoSuffix] == workspace + [SourceFolder, stem + VideoSuffix];
  }

  /** Appending to a joined path appends to its last component. */
  lemma {:induction false} JoinLast(front: seq<string>, last: string, suffix: string)
    ensures Join(front + [last]) + suffix == Join(front + [last + suffix])
    decreases |front|
  {
    if |front| > 0 {
      JoinLast(front[1..], last, suffix);
      assert (front + [last])[1..] == front[1..] + [last];
      assert (front + [last + suffix])[1..] == front[1..] + [last + suffix];
    }
  }
}

=== FILE: grouping.dfy ===
/** Lines 26-35 of `functions/search_context.py`: hits grouped by video in a dict (which keeps keys in the
    order they were first inserted), then one video picked. */
module Grouping {
  import opened Errors
  import opened FrameId
  import opened Selection

  /** The dict's keys in insertion order: each video once, in the order of
      its first hit. */
  function Videos(hits: seq<Hit>): (vs: seq<string>)
    ensures forall i, j :: 0 <= i < j < |vs| ==> vs[i] != vs[j]
    ensures forall v :: v in vs <==> exists n :: 0 <= n < |hits| && hits[n].video == v
    decreases |hits|
  {
    if |hits| == 0 then []
    else
      var front := hits[..|hits| - 1];
      var vs := Videos(front);
      var v := hits[|hits| - 1].video;
      assert forall n :: 0 <= n < |front| ==> front[n] == hits[n];
      if v in vs then vs else vs + [v]
  }

  /** `frames[v]`: the ordinals of the hits on `v`, in hit order. */
  function OrdinalsOf(hits: seq<Hit>, v: string): (os: seq<nat>)
    ensures |os| <= |hits|
    ensures forall o :: o in os <==> exists n :: 0 <= n < |hits| && hits[n].video == v && hits[n].ordinal == o
    decreases |hits|
  {
    if |hits| == 0 then []
    else
      var front := hits[..|hits| - 1];
      var h := hits[|hits| - 1];
      assert forall n :: 0 <= n < |front| ==> front[n] == hits[n];
      OrdinalsOf(front, v) + (if h.video == v then [h.ordinal] else [])
  }

  /** The indices of the hits on `v`, in increasing order: every hit on
      `v` appears exactly once. */
  function Positions(hits: seq<Hit>, v: string): (ps: seq<nat>)
    ensures forall k :: 0 <= k < |ps| ==> ps[k] < |hits| && hits[ps[k]].video == v
    ensures forall j, k :: 0 <= j < k < |ps| ==> ps[j] < ps[k]
    ensures forall n :: 0 <= n < |hits| && hits[n].video == v ==> n in ps
    decreases |hits|
  {
    if |hits| == 0 then []
    else
      var front := hits[..|hits| - 1];
      assert forall n :: 0 <= n < |front| ==> front[n] == hits[n];
      Positions(front, v) + (if hits[|hits| - 1].video == v then [|hits| - 1] else [])
  }

  /** `frames[v]` lists the ordinal of each hit on `v`, once per hit and in
      hit order: its length is the number of hits on `v`, which is what
      line 34 compares, and its duplicates are what fill the histogram. */
  lemma {:induction false} OrdinalsInHitOrder(hits: seq<Hit>, v: string)
    ensures |OrdinalsOf(hits, v)| == |Positions(hits, v)|
    ensures forall k :: 0 <= k < |Positions(hits, v)| ==> OrdinalsOf(hits, v)[k] == hits[Positions(hits, v)[k]].ordinal
    decreases |hits|
  {
    if |hits| > 0 {
      var front := hits[..|hits| - 1];
      OrdinalsInHitOrder(front, v);
      assert forall n :: 0 <= n < |front| ==> front[n] == hits[n];
    }
  }

  /** The number of hits on `v` is the size of `frames[v]`. */
  lemma HitCountIsLength(hits: seq<Hit>, v: string)
    ensures |OrdinalsOf(hits, v)| == |set n | 0 <= n < |hits| && hits[n].video == v|
  {
    OrdinalsInHitOrder(hits, v);
    var ps := Positions(hits, v);
    DistinctCard(ps);
    assert (set n | 0 <= n < |hits| && hits[n].video == v) == (set k | 0 <= k < |ps| :: ps[k]);
  }

  /** A sequence without repeats has as many distinct elements as entries. */
  lemma {:induction false} DistinctCard(ps: seq<nat>)
    requires forall j, k :: 0 <= j < k < |ps| ==> ps[j] < ps[k]
    ensures |set k | 0 <= k < |ps| :: ps[k]| == |ps|
    decreases |ps|
  {
    if |ps| > 0 {
      var front := ps[..|ps| - 1];
      DistinctCard(front);
      assert (set k | 0 <= k < |ps| :: ps[k]) == (set k | 0 <= k < |front| :: front[k]) + {ps[|ps| - 1]};
    }
  }

  /** The keys are in the order of the videos' first hits: whenever a hit
      is on a later key, an earlier hit is on every earlier key. */
  lemma {:induction false} VideosInFirstHitOrder(hits: seq<Hit>)
    ensures forall i, j, n :: 0 <= i < j < |Videos(hits)| && 0 <= n < |hits| && hits[n].video == Videos(hits)[j] ==>
              exists m :: 0 <= m < n && hits[m].video == Videos(hits)[i]
    decreases |hits|
  {
    if |hits| > 0 {
      var front := hits[..|hits| - 1];
      VideosInFirstHitOrder(front);
      var fvs := Videos(front);
      var vs := Videos(hits);
      var last := |hits| - 1;
      assert forall n :: 0 <= n < |front| ==> front[n] == hits[n];
      forall i, j, n | 0 <= i < j < |vs| && 0 <= n < |hits| && hits[n].video == vs[j]
        ensures exists m :: 0 <= m < n && hits[m].video == vs[i]
      {
        assert vs[i] == fvs[i];
        assert fvs[i] in fvs;
        var m :| 0 <= m < |front| && front[m].video == fvs[i];
        if n < last {
          assert front[n].video == fvs[j];
          var m' :| 0 <= m' < n && front[m'].video == fvs[i];
          assert hits[m'].video == vs[i];
        } else {
          assert hits[m].video == vs[i];
        }
      }
    }
  }

  /** All hits' ordinals, in hit order. */
  function Ordinals(hits: seq<Hit>): seq<nat>
  {
    seq(|hits|, n requires 0 <= n < |hits| => hits[n].ordinal)
  }

  /** The number of hits on each video of `vs`. */
  function HitCounts(hits: seq<Hit>, vs: seq<string>): seq<nat>
  {
    seq(|vs|, k requires 0 <= k < |vs| => |OrdinalsOf(hits, vs[k])|)
  }

  /** Lines 32-35 as written. The first video always passes `len(val) > 0`
      and binds `videoCount` to its list of ordinals, so a second video
      makes line 34 compare an int with a list, which raises TypeError. With
      no hits the loop never runs and the name stays "". */
  function SelectAsWritten(hits: seq<Hit>): (r: Result<string, Failure>)
    ensures r.Err? <==> |Videos(hits)| >= 2
    ensures r.Err? ==> r.error == MixedVideos
    ensures r.Ok? && |hits| == 0 ==> r.value == ""
    ensures r.Ok? ==> forall n :: 0 <= n < |hits| ==> hits[n].video == r.value
  {
    var vs := Videos(hits);
    if |vs| == 0 then Ok("")
    else if |vs| == 1 then
      assert forall n :: 0 <= n < |hits| ==> hits[n].video in vs;
      Ok(vs[0])
    else Err(MixedVideos)
  }

  /** Lines 32-35 as evidently intended (`videoCount = len(val)`): the first
      video, in insertion order, with strictly the most hits. */
  function SelectMostHits(hits: seq<Hit>): (v: string)
    ensures |hits| == 0 ==> v == ""
    ensures |hits| > 0 ==> v in Videos(hits) && |OrdinalsOf(hits, v)| > 0
    ensures forall n :: 0 <= n < |hits| ==> |OrdinalsOf(hits, hits[n].video)| <= |OrdinalsOf(hits, v)|
    ensures forall i, k :: 0 <= i < k < |Videos(hits)| && Videos(hits)[k] == v ==>
              |OrdinalsOf(hits, Videos(hits)[i])| < |OrdinalsOf(hits, v)|
  {
    var vs := Videos(hits);
    var counts := HitCounts(hits, vs);
    var r := FirstMax(counts);
    GroupsAreNonEmpty(hits);
    if r == -1 then
      ""
    else
      PickIsFirstMost(hits, r);
      vs[r]
  }

  /** Every video of the dict has at least one hit, and there is a video
      as soon as there is a hit. */
  lemma GroupsAreNonEmpty(hits: seq<Hit>)
    ensures forall k :: 0 <= k < |Videos(hits)| ==> |OrdinalsOf(hits, Videos(hits)[k])| > 0
    ensures |hits| > 0 ==> |Videos(hits)| > 0
  {
    var vs := Videos(hits);
    forall k | 0 <= k < |vs|
      ensures |OrdinalsOf(hits, vs[k])| > 0
    {
      assert vs[k] in vs;
      var n :| 0 <= n < |hits| && hits[n].video == vs[k];
      assert hits[n].ordinal in OrdinalsOf(hits, vs[k]);
    }
    if |hits| > 0 {
      assert hits[0].video in vs;
    }
  }

  /** The video at a first-maximum index of the hit counts has at least as
      many hits as any video, and strictly more than every earlier one. */
  lemma PickIsFirstMost(hits: seq<Hit>, r: int)
    requires 0 <= r < |Videos(hits)|
    requires IsFirstMax(HitCounts(hits, Videos(hits)), r)
    ensures forall n :: 0 <= n < |hits| ==> |OrdinalsOf(hits, hits[n].video)| <= |OrdinalsOf(hits, Videos(hits)[r])|
    ensures forall i, k :: 0 <= i < k < |Videos(hits)| && Videos(hits)[k] == Videos(hits)[r] ==>
              |OrdinalsOf(hits, Videos(hits)[i])| < |OrdinalsOf(hits, Videos(hits)[r])|
  {
    var vs := Videos(hits);
    var counts := HitCounts(hits, vs);
    forall n | 0 <= n < |hits|
      ensures |OrdinalsOf(hits, hits[n].video)| <= |OrdinalsOf(hits, vs[r])|
    {
      assert hits[n].video in vs;
      var k :| 0 <= k < |vs| && vs[k] == hits[n].video;
      assert counts[k] <= counts[r];
    }
    forall i, k | 0 <= i < k < |vs| && vs[k] == vs[r]
      ensures |OrdinalsOf(hits, vs[i])| < |OrdinalsOf(hits, vs[r])|
    {
      assert k == r;
      assert counts[i] < counts[r];
    }
  }

  /** Where the code as written returns a video, it is the one the intended
      selection picks; it fails exactly when there are two or more videos. */
  lemma SelectionsAgree(hits: seq<Hit>)
    ensures SelectAsWritten(hits).Ok? ==> SelectAsWritten(hits).value == SelectMostHits(hits)
  {
    if SelectAsWritten(hits).Ok? && |hits| > 0 {
      assert SelectMostHits(hits) in Videos(hits);
    }
  }

  /** With one video, its group holds every hit's ordinal in order. */
  lemma {:induction false} SingleVideoOrdinals(hits: seq<Hit>, v: string)
    requires forall n :: 0 <= n < |hits| ==> hits[n].video == v
    ensures OrdinalsOf(hits, v) == Ordinals(hits)
    decreases |hits|
  {
    if |hits| > 0 {
      var front := hits[..|hits| - 1];
      SingleVideoOrdinals(front, v);
      assert Ordinals(hits) == Ordinals(front) + [hits[|hits| - 1].ordinal];
    }
  }
}

=== FILE: heavy_range.dfy ===
/** `findHeavyRange` (`functions/search_context.py`, lines 19-48): from the ids of the retrieved frames to
    one clip `(video file, start second, end second)`. */
module HeavyRange {
  import opened Errors
  import opened PyPath
  import opened FrameId
  import opened Occupancy
  import opened Window
  import opened Grouping
  import opened Clips

  /** The returned triple: video file name, start and end second. */
  datatype Clip = Clip(video: string, start: int, end: int)

  /** The default window length of line 20. */
  const DefaultInterval: int := 4

  /** Lines 37-48 for the ordinals `ords` of the chosen video `key`: the
      histogram, the window scan (stopping where line 42 stops, or one
      window later when `scanLast`), and the clip. */
  function ClipOver(key: string, ords: seq<nat>, interval: int, scanLast: bool): (r: Result<Clip, Failure>)
    ensures r.Err? <==> |ords| == 0
    ensures r.Err? ==> r.error == NoMatches
    ensures r.Ok? ==> r.value.video == VideoFile(key) && r.value.end == r.value.start + interval
    ensures r.Ok? ==> r.value.start == 0 || 1 <= r.value.start <= MaxOf(ords) - interval + (if scanLast then 1 else 0)
  {
    if |ords| == 0 then Err(NoMatches)
    else
      var start := ClipStart(ords, interval, scanLast);
      Ok(Clip(VideoFile(key), start, start + interval))
  }

  /** Lines 37-45: the start of the window the scan settles on over the
      histogram of `ords`. */
  function ClipStart(ords: seq<nat>, interval: int, scanLast: bool): int
    requires |ords| > 0
  {
    var buffer := Histogram(ords);
    HeaviestStart(buffer, interval, if scanLast then FullStop(buffer, interval) else WrittenStop(buffer, interval))
  }

  /** Lines 26-48 as written, for parsed hits. */
  function RangeOfHits(hits: seq<Hit>, interval: int): (r: Result<Clip, Failure>)
    ensures r.Err? <==> |hits| == 0 || |Videos(hits)| >= 2
    ensures r == Err(NoMatches) <==> |hits| == 0
    ensures |Videos(hits)| >= 2 ==> r == Err(MixedVideos)
    ensures r.Ok? ==> |hits| > 0 && r.value.video == VideoFile(hits[0].video)
    ensures r.Ok? ==> r.value.end == r.value.start + interval
    ensures r.Ok? ==> r.value.start == 0 || 1 <= r.value.start <= MaxOf(Ordinals(hits)) - interval
  {
    var key :- SelectAsWritten(hits);
    SingleVideoOrdinals(hits, key);
    ClipOver(key, OrdinalsOf(hits, key), interval, false)
  }

  /** `findHeavyRange(matches, interval)` as written, for the matches' ids. */
  function FindHeavyRange(ids: seq<string>, interval: int): (r: Result<Clip, Failure>)
    ensures r.Ok? <==> && |ids| > 0
                       && (forall k :: 0 <= k < |ids| ==> ParseHit(ids[k]).Ok?)
                       && (forall k :: 0 <= k < |ids| ==> VideoKey(ids[k]) == VideoKey(ids[0]))
    ensures r.Ok? ==> r.value.video == VideoFile(VideoKey(ids[0])) && r.value.end == r.value.start + interval
    ensures |ids| == 0 ==> r == Err(NoMatches)
    ensures (exists k :: 0 <= k < |ids| && ParseHit(ids[k]).Err?) ==> r.Err? && r.error.MalformedOrdinal?
    ensures forall k :: FirstFailure(ids, k) ==> r == Err(MalformedOrdinal(ids[k]))
    ensures && |ids| > 0
            && (forall k :: 0 <= k < |ids| ==> ParseHit(ids[k]).Ok?)
            && (exists k :: 0 <= k < |ids| && VideoKey(ids[k]) != VideoKey(ids[0]))
            ==> r == Err(MixedVideos)
  {
    var hits :- ParseHits(ids);
    OneVideoIffSameKey(hits);
    RangeOfHits(hits, interval)
  }

  /** Lines 26-48 with both slips corrected: the video with the most hits
      is chosen, and the last window is scanned too. */
  function RangeOfHitsCorrected(hits: seq<Hit>, interval: int): (r: Result<Clip, Failure>)
    ensures r.Err? <==> |hits| == 0
    ensures r.Err? ==> r.error == NoMatches
    ensures r.Ok? ==> r.value.video == VideoFile(SelectMostHits(hits)) && r.value.end == r.value.start + interval
  {
    var key := SelectMostHits(hits);
    ClipOver(key, OrdinalsOf(hits, key), interval, true)
  }

  /** `findHeavyRange` with both slips corrected, for the matches' ids. */
  function FindHeavyRangeCorrected(ids: seq<string>, interval: int): (r: Result<Clip, Failure>)
    ensures r.Ok? <==> |ids| > 0 && forall k :: 0 <= k < |ids| ==> ParseHit(ids[k]).Ok?
    ensures r.Ok? ==> r.value.end == r.value.start + interval
  {
    var hits :- ParseHits(ids);
    RangeOfHitsCorrected(hits, interval)
  }

  /** A list of hits has at most one video exactly when all hits share
      the first hit's video. */
  lemma OneVideoIffSameKey(hits: seq<Hit>)
    ensures |Videos(hits)| < 2 <==> forall n :: 0 <= n < |hits| ==> hits[n].video == hits[0].video
  {
    var vs := Videos(hits);
    if forall n :: 0 <= n < |hits| ==> hits[n].video == hits[0].video {
      forall k | 0 <= k < |vs|
        ensures vs[k] == hits[0].video
      {
        assert vs[k] in vs;
      }
    } else {
      var n :| 0 <= n < |hits| && hits[n].video != hits[0].video;
      assert hits[n].video in vs && hits[0].video in vs;
    }
  }

  /** For hits of one video, the search is the window scan as written over
      the histogram of all the hits' ordinals. */
  lemma RangeOfOneVideo(hits: seq<Hit>, key: string, interval: int)
    requires |hits| > 0
    requires forall n :: 0 <= n < |hits| ==> hits[n].video == key
    ensures RangeOfHits(hits, interval) == Ok(Clip(VideoFile(key), ClipStart(Ordinals(hits), interval, false), ClipStart(Ordinals(hits), interval, false) + interval))
  {
    SelectOneVideo(hits, key);
    SingleVideoOrdinals(hits, key);
    WrittenClip(hits, key, Ordinals(hits), interval);
  }

  /** With one video, the choice as written picks it. */
  lemma SelectOneVideo(hits: seq<Hit>, key: string)
    requires |hits| > 0
    requires forall n :: 0 <= n < |hits| ==> hits[n].video == key
    ensures SelectAsWritten(hits) == Ok(key)
  {
    OneVideoIffSameKey(hits);
  }

  /** Once a video is chosen, and its ordinals, the search is the window
      scan as written over their histogram. */
  lemma WrittenClip(hits: seq<Hit>, key: string, ords: seq<nat>, interval: int)
    requires |hits| > 0 && SelectAsWritten(hits) == Ok(key)
    requires OrdinalsOf(hits, key) == ords && |ords| > 0
    ensures RangeOfHits(hits, interval) == Ok(Clip(VideoFile(key), ClipStart(ords, interval, false), ClipStart(ords, interval, false) + interval))
  {
    ClipOverOf(key, ords, interval, false);
  }

  /** The clip over a non-empty list of ordinals starts where the window
      scan over their histogram settles. */
  lemma ClipOverOf(key: string, ords: seq<nat>, interval: int, scanLast: bool)
    requires |ords| > 0
    ensures ClipOver(key, ords, interval, scanLast) == Ok(Clip(VideoFile(key), ClipStart(ords, interval, scanLast), ClipStart(ords, interval, scanLast) + interval))
  {
  }

  /** A start that is heaviest over the windows scanned as written is the
      scan's start. */
  lemma ClipStartIs(ords: seq<nat>, interval: int, start: int)
    requires |ords| > 0
    requires Heaviest(Histogram(ords), interval, WrittenStop(Histogram(ords), interval), start)
    ensures ClipStart(ords, interval, false) == start
  {
    HeaviestStartIs(Histogram(ords), interval, WrittenStop(Histogram(ords), interval), start);
  }

  /** For hits of one video, the corrected search is the full window scan
      over the histogram of all the hits' ordinals. */
  lemma CorrectedRangeOfOneVideo(hits: seq<Hit>, key: string, interval: int)
    requires |hits| > 0
    requires forall n :: 0 <= n < |hits| ==> hits[n].video == key
    ensures RangeOfHitsCorrected(hits, interval) == Ok(Clip(VideoFile(key), ClipStart(Ordinals(hits), interval, true), ClipStart(Ordinals(hits), interval, true) + interval))
  {
    MostHitsOfOneVideo(hits, key);
    SingleVideoOrdinals(hits, key);
    CorrectedClip(hits, key, Ordinals(hits), interval);
  }

  /** Once the video with most hits is known, and its ordinals, the
      corrected search is the full clip over them. */
  lemma CorrectedClip(hits: seq<Hit>, key: string, ords: seq<nat>, interval: int)
    requires SelectMostHits(hits) == key && OrdinalsOf(hits, key) == ords && |ords| > 0
    ensures RangeOfHitsCorrected(hits, interval) == Ok(Clip(VideoFile(key), ClipStart(ords, interval, true), ClipStart(ords, interval, true) + interval))
  {
    ClipOverOf(key, ords, interval, true);
  }

  /** With one video, the corrected choice picks it. */
  lemma MostHitsOfOneVideo(hits: seq<Hit>, key: string)
    requires |hits| > 0
    requires forall n :: 0 <= n < |hits| ==> hits[n].video == key
    ensures SelectMostHits(hits) == key
  {
    SelectOneVideo(hits, key);
    SelectionsAgree(hits);
  }

  /** As written, the clip holds the most hits among the clips starting at
      `1 .. max - interval`, the earliest on a tie; with start 0 none of
      them holds a hit. */
  lemma ClipIsHeaviest(hits: seq<Hit>, interval: int)
    requires interval >= 0
    requires |hits| > 0 && forall n :: 0 <= n < |hits| ==> hits[n].video == hits[0].video
    ensures RangeOfHits(hits, interval).Ok?
    ensures HeaviestClip(Ordinals(hits), interval, MaxOf(Ordinals(hits)) - interval, RangeOfHits(hits, interval).value.start)
  {
    OneVideoIffSameKey(hits);
    var key := SelectAsWritten(hits).value;
    SingleVideoOrdinals(hits, key);
    var xs := Ordinals(hits);
    var buffer := Histogram(xs);
    HeaviestIsHeaviestClip(xs, interval, WrittenStop(buffer, interval), HeaviestStart(buffer, interval, WrittenStop(buffer, interval)));
  }

  /** Corrected, the clip holds the most hits of the chosen video among
      the clips starting at `1 .. max - interval + 1`, the earliest on a tie. */
  lemma CorrectedClipIsHeaviest(hits: seq<Hit>, interval: int)
    requires interval >= 0
    requires |hits| > 0
    ensures var xs := OrdinalsOf(hits, SelectMostHits(hits));
      |xs| > 0 && HeaviestClip(xs, interval, MaxOf(xs) - interval + 1, RangeOfHitsCorrected(hits, interval).value.start)
  {
    var xs := OrdinalsOf(hits, SelectMostHits(hits));
    var buffer := Histogram(xs);
    HeaviestIsHeaviestClip(xs, interval, FullStop(buffer, interval), HeaviestStart(buffer, interval, FullStop(buffer, interval)));
  }

  /** Corrected, with windows of at least one second, the clip holds at
      least one hit of the chosen video. */
  lemma CorrectedClipHoldsAHit(hits: seq<Hit>, interval: int)
    requires interval >= 1
    requires |hits| > 0
    ensures var c := RangeOfHitsCorrected(hits, interval).value;
      exists n :: 0 <= n < |hits| && hits[n].video == SelectMostHits(hits) && c.start <= hits[n].ordinal < c.end
  {
    var key := SelectMostHits(hits);
    var xs := OrdinalsOf(hits, key);
    var c := RangeOfHitsCorrected(hits, interval).value;
    CorrectedClipIsHeaviest(hits, interval);
    FullScanHoldsAnOrdinal(xs, interval, c.start);
    var j :| 0 <= j < |xs| && c.start <= xs[j] < c.start + interval;
    assert xs[j] in xs;
    var n :| 0 <= n < |hits| && hits[n].video == key && hits[n].ordinal == xs[j];
  }

  lemma ParsedIds(ids: seq<string>, hits: seq<Hit>)
    requires |ids| == |hits|
    requires forall k :: 0 <= k < |ids| ==> ParseHit(ids[k]) == Ok(hits[k])
    ensures ParseHits(ids) == Ok(hits)
  {
    var r := ParseHits(ids);
    assert r.Ok?;
    assert r.value == hits;
  }

  /** Ids that all parse, to hits on one video, give that video's clip. */
  lemma FindHeavyRangeOfOneVideo(ids: seq<string>, hits: seq<Hit>, key: string, interval: int)
    requires |ids| == |hits| > 0
    requires forall k :: 0 <= k < |ids| ==> ParseHit(ids[k]) == Ok(hits[k])
    requires forall k :: 0 <= k < |hits| ==> hits[k].video == key
    ensures FindHeavyRange(ids, interval) == RangeOfHits(hits, interval)
    ensures FindHeavyRange(ids, interval).Ok?
    ensures FindHeavyRange(ids, interval).value.video == VideoFile(key)
  {
    ParsedIds(ids, hits);
    OneVideoIffSameKey(hits);
  }

  lemma ParseFramePaths(rooted: bool, workspace: seq<string>, stem: string, ords: seq<nat>, ids: seq<string>, hits: seq<Hit>)
    requires forall k :: 0 <= k < |workspace| ==> PlainName(workspace[k])
    requires PlainName(stem)
    requires |ids| == |ords| == |hits|
    requires forall k :: 0 <= k < |ids| ==> ids[k] == FramePath(rooted, workspace, stem, ords[k])
    requires forall k :: 0 <= k < |ids| ==> hits[k] == Hit(SourceKey(rooted, workspace, stem), ords[k])
    ensures forall k :: 0 <= k < |ids| ==> ParseHit(ids[k]) == Ok(hits[k])
  {
    forall k | 0 <= k < |ids|
      ensures ParseHit(ids[k]) == Ok(hits[k])
    {
      ParseFramePath(rooted, workspace, stem, ords[k]);
    }
  }

  /** The ids of the frame descriptions of one video give a clip of that
      video's source file. */
  lemma FramePathsOfOneVideo(rooted: bool, workspace: seq<string>, stem: string, ords: seq<nat>, ids: seq<string>, interval: int)
    requires forall k :: 0 <= k < |workspace| ==> PlainName(workspace[k])
    requires PlainName(stem)
    requires |ids| == |ords| > 0
    requires forall k :: 0 <= k < |ids| ==> ids[k] == FramePath(rooted, workspace, stem, ords[k])
    ensures FindHeavyRange(ids, interval).Ok?
    ensures FindHeavyRange(ids, interval).value.video == SourceFile(rooted, workspace, stem)
  {
    var key := SourceKey(rooted, workspace, stem);
    var hits := seq(|ords|, k requires 0 <= k < |ords| => Hit(key, ords[k]));
    ParseFramePaths(rooted, workspace, stem, ords, ids, hits);
    assert forall k :: 0 <= k < |hits| ==> hits[k].video == key;
    FindHeavyRangeOfOneVideo(ids, hits, key, interval);
    VideoFileOfSourceKey(rooted, workspace, stem);
  }
}

=== FILE: occupancy.dfy ===
/** The occupancy histogram of `functions/search_context.py`, lines 37-39:
    `buffer[o]` counts the hits on frame `o` of the selected video. */
module Occupancy {

  /** Python's `sum()` over a list of naturals (line 43). */
  function Sum(s: seq<nat>): nat
  {
    if |s| == 0 then 0 else Sum(s[..|s| - 1]) + s[|s| - 1]
  }

  /** Python's `max(xs)` on a non-empty list. */
  function MaxOf(xs: seq<nat>): (m: nat)
    requires |xs| > 0
    ensures m in xs
    ensures forall k :: 0 <= k < |xs| ==> xs[k] <= m
  {
    if |xs| == 1 then xs[0]
    else
      var m := MaxOf(xs[..|xs| - 1]);
      assert forall k :: 0 <= k < |xs| - 1 ==> xs[..|xs| - 1][k] == xs[k];
      assert m in xs[..|xs| - 1];
      if xs[|xs| - 1] > m then xs[|xs| - 1] else m
  }

  /** The number of entries of `xs` that lie in `[lo, hi)`. */
  function Count(xs: seq<nat>, lo: int, hi: int): nat
  {
    if |xs| == 0 then 0
    else Count(xs[..|xs| - 1], lo, hi) + (if lo <= xs[|xs| - 1] < hi then 1 else 0)
  }

  /** `buffer` after line 39: one slot per frame from 0 to the largest
      ordinal, each holding that frame's number of hits. */
  function Histogram(xs: seq<nat>): seq<nat>
    requires |xs| > 0
  {
    seq(MaxOf(xs) + 1, o => Count(xs, o, o + 1))
  }

  /** Lines 37-39 as written: a zero buffer one longer than the largest
      ordinal, incremented once per hit. */
  method BuildHistogram(xs: seq<nat>) returns (buffer: seq<nat>)
    requires |xs| > 0
    ensures |buffer| == MaxOf(xs) + 1
    ensures forall o :: 0 <= o < |buffer| ==> buffer[o] == Count(xs, o, o + 1)
    ensures Sum(buffer) == |xs|
  {
    buffer := seq(MaxOf(xs) + 1, _ => 0);
    for k := 0 to |xs|
      invariant |buffer| == MaxOf(xs) + 1
      invariant forall o :: 0 <= o < |buffer| ==> buffer[o] == Count(xs[..k], o, o + 1)
    {
      assert xs[..k + 1][..k] == xs[..k];
      buffer := buffer[xs[k] := buffer[xs[k]] + 1];
    }
    assert xs[..|xs|] == xs;
    assert buffer == Histogram(xs);
    HistogramSum(xs);
  }

  lemma {:induction false} CountEmpty(xs: seq<nat>, lo: int)
    ensures Count(xs, lo, lo) == 0
    decreases |xs|
  {
    if |xs| > 0 {
      CountEmpty(xs[..|xs| - 1], lo);
    }
  }

  /** Counting over `[lo, hi)` is counting over `[lo, mid)` and `[mid, hi)`. */
  lemma {:induction false} CountSplit(xs: seq<nat>, lo: int, mid: int, hi: int)
    requires lo <= mid <= hi
    ensures Count(xs, lo, hi) == Count(xs, lo, mid) + Count(xs, mid, hi)
    decreases |xs|
  {
    if |xs| > 0 {
      CountSplit(xs[..|xs| - 1], lo, mid, hi);
    }
  }

  /** When every entry lies in `[lo, hi)`, all of them are counted. */
  lemma {:induction false} CountAll(xs: seq<nat>, lo: int, hi: int)
    requires forall k :: 0 <= k < |xs| ==> lo <= xs[k] < hi
    ensures Count(xs, lo, hi) == |xs|
    decreases |xs|
  {
    if |xs| > 0 {
      CountAll(xs[..|xs| - 1], lo, hi);
    }
  }

  /** A one-frame count is the frame's multiplicity among the entries. */
  lemma {:induction false} CountIsMultiplicity(xs: seq<nat>, o: nat)
    ensures Count(xs, o, o + 1) == multiset(xs)[o]
    decreases |xs|
  {
    if |xs| > 0 {
      CountIsMultiplicity(xs[..|xs| - 1], o);
      assert xs[..|xs| - 1] + [xs[|xs| - 1]] == xs;
    }
  }

  /** A positive count names an entry in the range. */
  lemma {:induction false} CountWitness(xs: seq<nat>, lo: int, hi: int)
    requires Count(xs, lo, hi) > 0
    ensures exists k :: 0 <= k < |xs| && lo <= xs[k] < hi
    decreases |xs|
  {
    if !(lo <= xs[|xs| - 1] < hi) {
      CountWitness(xs[..|xs| - 1], lo, hi);
      var k :| 0 <= k < |xs| - 1 && lo <= xs[..|xs| - 1][k] < hi;
      assert xs[k] == xs[..|xs| - 1][k];
    }
  }

  /** The histogram slots `a..b` together hold exactly the hits on frames
      `a` to `b - 1`. */
  lemma {:induction false} RangeSum(xs: seq<nat>, a: nat, b: nat)
    requires |xs| > 0
    requires a <= b <= |Histogram(xs)|
    ensures Sum(Histogram(xs)[a..b]) == Count(xs, a, b)
    decreases b - a
  {
    var h := Histogram(xs);
    if a == b {
      CountEmpty(xs, a);
    } else {
      RangeSum(xs, a, b - 1);
      assert h[a..b][..b - a - 1] == h[a..b - 1];
      CountSplit(xs, a, b - 1, b);
    }
  }

  /** The histogram's slots sum to the number of hits. */
  lemma HistogramSum(xs: seq<nat>)
    requires |xs| > 0
    ensures Sum(Histogram(xs)) == |xs|
  {
    var h := Histogram(xs);
    RangeSum(xs, 0, |h|);
    assert h[0..|h|] == h;
    CountAll(xs, 0, |h|);
  }
}

=== FILE: pypath.dfy ===
/** The part of POSIX `pathlib.PurePath` that reads a match id: the
    components of a path, its `parent`, `name` and `stem`. Line numbers
    refer to `functions/search_context.py`. */
module PyPath {

  /** `s.split("/")`: the pieces between separators, empty ones included. */
  function Split(s: string): (parts: seq<string>)
    ensures |parts| >= 1
    ensures forall k :: 0 <= k < |parts| ==> '/' !in parts[k]
    decreases |s|
  {
    if |s| == 0 then [""]
    else if s[0] == '/' then [""] + Split(s[1..])
    else
      var rest := Split(s[1..]);
      [[s[0]] + rest[0]] + rest[1..]
  }

  /** `"/".join(parts)`. */
  function Join(parts: seq<string>): string
  {
    if |parts| == 0 then ""
    else if |parts| == 1 then parts[0]
    else parts[0] + "/" + Join(parts[1..])
  }

  /** A component that pathlib keeps: not empty, not `.`, without a separator. */
  predicate Kept(part: string) {
    part != "" && part != "."
  }

  predicate Clean(part: string) {
    Kept(part) && '/' !in part
  }

  /** The components pathlib keeps, in order. */
  function KeepComponents(parts: seq<string>): seq<string>
  {
    if |parts| == 0 then []
    else if Kept(parts[0]) then [parts[0]] + KeepComponents(parts[1..])
    else KeepComponents(parts[1..])
  }

  /** The root of a POSIX path: exactly two leading slashes are kept as `//`,
      any other number of leading slashes collapses to `/`. */
  function Root(s: string): string
  {
    if |s| >= 2 && s[0] == '/' && s[1] == '/' && (|s| == 2 || s[2] != '/') then "//"
    else if |s| >= 1 && s[0] == '/' then "/"
    else ""
  }

  /** The path's components after the root (pathlib's `_tail`). */
  function Tail(s: string): seq<string>
  {
    KeepComponents(Split(s))
  }

  /** `str(p)` for a path with the given root and components. */
  function Format(root: string, tail: seq<string>): string
  {
    if root == "" && |tail| == 0 then "." else root + Join(tail)
  }

  /** `str(Path(s).parent)`. */
  function Parent(s: string): string
  {
    var t := Tail(s);
    Format(Root(s), if |t| == 0 then t else t[..|t| - 1])
  }

  /** `Path(s).name`: the last component, or "" for a bare root or `.`. */
  function Name(s: string): string
  {
    var t := Tail(s);
    if |t| == 0 then "" else t[|t| - 1]
  }

  /** `s.rfind(c)`: the last index of `c`, or -1 when `c` does not occur. */
  function RFind(s: string, c: char): (i: int)
    ensures -1 <= i < |s|
    ensures i >= 0 ==> s[i] == c && c !in s[i + 1..]
    ensures i == -1 ==> c !in s
  {
    if |s| == 0 then -1
    else if s[|s| - 1] == c then |s| - 1
    else RFind(s[..|s| - 1], c)
  }

  /** `Path(s).stem`: the name without its last suffix. A dot that starts
      or ends the name does not begin a suffix. */
  function Stem(s: string): string
  {
    var name := Name(s);
    var i := RFind(name, '.');
    if 0 < i < |name| - 1 then name[..i] else name
  }

  function Anchor(rooted: bool): string
  {
    if rooted then "/" else ""
  }

  /** Splitting a join of separator-free pieces gives the pieces back. */
  lemma {:induction false} SplitJoin(parts: seq<string>)
    requires |parts| >= 1
    requires forall k :: 0 <= k < |parts| ==> '/' !in parts[k]
    ensures Split(Join(parts)) == parts
    decreases |parts|
  {
    if |parts| == 1 {
      SplitPlain(parts[0]);
    } else {
      SplitJoin(parts[1..]);
      SplitAfterPlain(parts[0], Join(parts[1..]));
      assert [parts[0]] + parts[1..] == parts;
    }
  }

  lemma {:induction false} SplitPlain(x: string)
    requires '/' !in x
    ensures Split(x) == [x]
    decreases |x|
  {
    if |x| > 0 {
      SplitPlain(x[1..]);
      assert [x[0]] + x[1..] == x;
    }
  }

  lemma {:induction false} SplitAfterPlain(x: string, t: string)
    requires '/' !in x
    ensures Split(x + "/" + t) == [x] + Split(t)
    decreases |x|
  {
    var s := x + "/" + t;
    if |x| == 0 {
      assert s == "/" + t && s[1..] == t;
    } else {
      assert s[1..] == x[1..] + "/" + t;
      SplitAfterPlain(x[1..], t);
      assert [x[0]] + x[1..] == x;
    }
  }

  lemma {:induction false} KeepClean(parts: seq<string>)
    requires forall k :: 0 <= k < |parts| ==> Kept(parts[k])
    ensures KeepComponents(parts) == parts
    decreases |parts|
  {
    if |parts| > 0 {
      KeepClean(parts[1..]);
      assert [parts[0]] + parts[1..] == parts;
    }
  }

  lemma TailOfJoined(rooted: bool, parts: seq<string>)
    requires |parts| >= 1
    requires forall k :: 0 <= k < |parts| ==> Clean(parts[k])
    ensures Tail(Anchor(rooted) + Join(parts)) == parts
  {
    SplitJoin(parts);
    KeepClean(parts);
    if rooted {
      SplitAfterPlain("", Join(parts));
      assert "" + "/" + Join(parts) == Anchor(rooted) + Join(parts);
    } else {
      assert Anchor(rooted) + Join(parts) == Join(parts);
    }
  }

  lemma {:induction false} JoinStart(parts: seq<string>)
    requires |parts| >= 1 && |parts[0]| > 0
    ensures |Join(parts)| > 0 && Join(parts)[0] == parts[0][0]
  {
  }

  lemma RootOfJoined(rooted: bool, parts: seq<string>)
    requires |parts| >= 1
    requires forall k :: 0 <= k < |parts| ==> Clean(parts[k])
    ensures Root(Anchor(rooted) + Join(parts)) == Anchor(rooted)
  {
    JoinStart(parts);
    assert parts[0][0] in parts[0];
    var s := Anchor(rooted) + Join(parts);
    if rooted {
      assert s[0] == '/' && s[1] == parts[0][0];
    } else {
      assert s[0] == parts[0][0];
    }
  }

  /** For a path written as an optional leading `/` followed by clean
      components joined by `/`, pathlib recovers exactly those components:
      the parent is the path without its last component and the name is
      that last component. */
  lemma ParseJoinedPath(rooted: bool, parts: seq<string>)
    requires |parts| >= 2
    requires forall k :: 0 <= k < |parts| ==> Clean(parts[k])
    ensures Tail(Anchor(rooted) + Join(parts)) == parts
    ensures Parent(Anchor(rooted) + Join(parts)) == Anchor(rooted) + Join(parts[..|parts| - 1])
    ensures Name(Anchor(rooted) + Join(parts)) == parts[|parts| - 1]
  {
    TailOfJoined(rooted, parts);
    RootOfJoined(rooted, parts);
    PartsOfTail(Anchor(rooted) + Join(parts), parts);
  }

  /** Once the components of a path are known, its parent drops the last
      one and its name is the last one. */
  lemma PartsOfTail(s: string, parts: seq<string>)
    requires Tail(s) == parts && |parts| >= 2
    ensures Parent(s) == Root(s) + Join(parts[..|parts| - 1])
    ensures Name(s) == parts[|parts| - 1]
  {
  }

  /** The stem of `base.ext` is `base` when `ext` is a non-empty extension
      without dots and `base` is not empty. */
  lemma StemOfFileName(s: string, base: string, ext: string)
    requires Name(s) == base + "." + ext
    requires |base| > 0 && |ext| > 0 && '.' !in ext
    ensures Stem(s) == base
  {
    var name := base + "." + ext;
    assert name[|base|] == '.';
    assert name[|base| + 1..] == ext;
    assert name[..|base|] == base;
  }
}

=== FILE: pystr.dfy ===
/** Python's `str.replace(old, new)` with no count: every non-overlapping
    occurrence of `old`, scanned left to right, is replaced by `new`.
    Line numbers refer to `functions/search_context.py`. */
module PyStr {

  /** `p` occurs in `s` starting at index `i`. */
  predicate OccursAt(s: string, p: string, i: nat) {
    i + |p| <= |s| && s[i..i + |p|] == p
  }

  /** `p` is a substring of `s` (Python's `p in s`). */
  predicate Contains(s: string, p: string) {
    exists i: nat | i <= |s| :: OccursAt(s, p, i)
  }

  /** `s.replace(p, r)`. For an empty `p`, Python inserts `r` before every
      character and once more at the end. */
  function Replace(s: string, p: string, r: string): string
    decreases |s|
  {
    if |p| == 0 then
      if |s| == 0 then r else r + [s[0]] + Replace(s[1..], p, r)
    else if |s| < |p| then s
    else if s[..|p|] == p then r + Replace(s[|p|..], p, r)
    else [s[0]] + Replace(s[1..], p, r)
  }

  /** A string in which `p` never occurs is left unchanged. */
  lemma {:induction false} ReplaceAbsent(s: string, p: string, r: string)
    requires |p| > 0
    requires !Contains(s, p)
    ensures Replace(s, p, r) == s
    decreases |s|
  {
    if |s| < |p| {
    } else {
      if s[..|p|] == p {
        assert OccursAt(s, p, 0);
        assert false;
      }
      if Contains(s[1..], p) {
        var i: nat :| i <= |s[1..]| && OccursAt(s[1..], p, i);
        assert s[i + 1..i + 1 + |p|] == s[1..][i..i + |p|];
        assert OccursAt(s, p, i + 1);
        assert false;
      }
      ReplaceAbsent(s[1..], p, r);
      assert [s[0]] + s[1..] == s;
    }
  }

  /** When the first character of `p` never appears in `s`, neither does `p`. */
  lemma FirstCharAbsent(s: string, p: string)
    requires |p| > 0
    requires forall k :: 0 <= k < |s| ==> s[k] != p[0]
    ensures !Contains(s, p)
  {
    forall i: nat | i <= |s|
      ensures !OccursAt(s, p, i)
    {
      if i + |p| <= |s| {
        assert s[i..i + |p|][0] == s[i] != p[0];
      }
    }
  }

  /** A leading occurrence of `p` is replaced, and the scan resumes after it. */
  lemma ReplaceLeading(p: string, r: string, t: string)
    requires |p| > 0
    ensures Replace(p + t, p, r) == r + Replace(t, p, r)
  {
    assert (p + t)[..|p|] == p;
    assert (p + t)[|p|..] == t;
  }

  /** A character that `p` does not contain separates the replacement: no
      occurrence of `p` can straddle it, so the two sides are rewritten
      independently. */
  lemma {:induction false} ReplaceAroundSeparator(a: string, c: char, b: string, p: string, r: string)
    requires |p| > 0
    requires forall k :: 0 <= k < |p| ==> p[k] != c
    ensures Replace(a + [c] + b, p, r) == Replace(a, p, r) + [c] + Replace(b, p, r)
    decreases |a|
  {
    if |a| == 0 {
      SeparatorFirst(c, b, p, r);
    } else if |a| >= |p| && a[..|p|] == p {
      ReplaceAroundSeparator(a[|p|..], c, b, p, r);
      SeparatorAfterMatch(a, c, b, p, r);
    } else {
      ReplaceAroundSeparator(a[1..], c, b, p, r);
      SeparatorAfterSkip(a, c, b, p, r);
    }
  }

  /** A string that starts with a character not in `p` keeps that character
      and is rewritten from the next one on. */
  lemma SeparatorFirst(c: char, b: string, p: string, r: string)
    requires |p| > 0
    requires forall k :: 0 <= k < |p| ==> p[k] != c
    ensures Replace([] + [c] + b, p, r) == Replace([], p, r) + [c] + Replace(b, p, r)
  {
    var s := [c] + b;
    assert [] + [c] + b == s;
    if |s| >= |p| {
      assert s[..|p|][0] == c;
    }
    assert s[1..] == b;
  }

  /** The inductive step when `a` starts with `p`. */
  lemma SeparatorAfterMatch(a: string, c: char, b: string, p: string, r: string)
    requires |p| > 0 && |a| >= |p| && a[..|p|] == p
    requires Replace(a[|p|..] + [c] + b, p, r) == Replace(a[|p|..], p, r) + [c] + Replace(b, p, r)
    ensures Replace(a + [c] + b, p, r) == Replace(a, p, r) + [c] + Replace(b, p, r)
  {
    var s := a + [c] + b;
    assert s[..|p|] == a[..|p|];
    assert s[|p|..] == a[|p|..] + [c] + b;
  }

  /** The inductive step when `a` does not start with `p`. */
  lemma SeparatorAfterSkip(a: string, c: char, b: string, p: string, r: string)
    requires |p| > 0 && |a| > 0 && !(|a| >= |p| && a[..|p|] == p)
    requires forall k :: 0 <= k < |p| ==> p[k] != c
    requires Replace(a[1..] + [c] + b, p, r) == Replace(a[1..], p, r) + [c] + Replace(b, p, r)
    ensures Replace(a + [c] + b, p, r) == Replace(a, p, r) + [c] + Replace(b, p, r)
  {
    var s := a + [c] + b;
    assert s[1..] == a[1..] + [c] + b;
    var ra := Replace(a[1..], p, r);
    var rb := Replace(b, p, r);
    if |s| >= |p| {
      if |a| >= |p| {
        assert s[..|p|] == a[..|p|];
      } else {
        assert s[..|p|][|a|] == c != p[|a|];
      }
      assert Replace(s, p, r) == [a[0]] + (ra + [c] + rb);
    } else {
      assert Replace(s, p, r) == s;
      assert Replace(b, p, r) == b;
      assert Replace(a[1..], p, r) == a[1..];
      assert s == [a[0]] + (ra + [c] + rb);
    }
    if |a| >= |p| {
      assert Replace(a, p, r) == [a[0]] + ra;
    } else {
      assert Replace(a, p, r) == a;
      assert Replace(a[1..], p, r) == a[1..];
      assert [a[0]] + a[1..] == a;
    }
    Regroup(a[0], ra, c, rb);
  }

  /** `[x] + (u + [c] + v)` regrouped. */
  lemma Regroup(x: char, u: string, c: char, v: string)
    ensures [x] + (u + [c] + v) == ([x] + u) + [c] + v
  {
  }
}

=== FILE: scenarios.dfy ===
/** Worked examples of the range search, and the inputs that show where the
    code as written departs from its evident intent. Line numbers refer to
    `functions/search_context.py`. */
module Scenarios {
  import opened Errors
  import opened FrameId
  import opened Occupancy
  import opened Window
  import opened Grouping
  import opened HeavyRange

  lemma SumOfFour(a: nat, b: nat, c: nat, d: nat)
    ensures Sum([a, b, c, d]) == a + b + c + d
  {
    assert [a][..0] == [];
    assert Sum([a]) == a;
    assert [a, b][..1] == [a];
    assert Sum([a, b]) == a + b;
    assert [a, b, c][..2] == [a, b];
    assert Sum([a, b, c]) == a + b + c;
    assert [a, b, c, d][..3] == [a, b, c];
  }

  lemma WindowOfFour(buffer: seq<nat>, i: nat)
    requires i + 4 <= |buffer|
    ensures WindowSum(buffer, i, 4) == buffer[i] + buffer[i + 1] + buffer[i + 2] + buffer[i + 3]
  {
    assert buffer[i..i + 4] == [buffer[i], buffer[i + 1], buffer[i + 2], buffer[i + 3]];
    SumOfFour(buffer[i], buffer[i + 1], buffer[i + 2], buffer[i + 3]);
  }

  lemma ExampleMultiplicity(o: nat)
    requires o <= 10
    ensures multiset([1, 1, 2, 3, 3, 3, 4, 10])[o] == [0, 2, 1, 3, 1, 0, 0, 0, 0, 0, 1][o]
  {
  }

  lemma ExampleSlot(xs: seq<nat>, o: nat)
    requires xs == [1, 1, 2, 3, 3, 3, 4, 10] && o <= 10
    ensures Count(xs, o, o + 1) == [0, 2, 1, 3, 1, 0, 0, 0, 0, 0, 1][o]
  {
    CountIsMultiplicity(xs, o);
    ExampleMultiplicity(o);
  }

  lemma ExampleMax()
    ensures MaxOf([1, 1, 2, 3, 3, 3, 4, 10]) == 10
  {
    var xs: seq<nat> := [1, 1, 2, 3, 3, 3, 4, 10];
    var m := MaxOf(xs);
    assert xs[7] <= m;
    assert forall k :: 0 <= k < |xs| ==> xs[k] <= 10;
    var k :| 0 <= k < |xs| && xs[k] == m;
  }

  lemma ExampleHistogram(xs: seq<nat>)
    requires xs == [1, 1, 2, 3, 3, 3, 4, 10]
    ensures Histogram(xs) == [0, 2, 1, 3, 1, 0, 0, 0, 0, 0, 1]
  {
    var buffer: seq<nat> := [0, 2, 1, 3, 1, 0, 0, 0, 0, 0, 1];
    ExampleMax();
    var h := Histogram(xs);
    assert |h| == |buffer|;
    forall o | 0 <= o < |buffer|
      ensures h[o] == buffer[o]
    {
      ExampleSlot(xs, o);
    }
  }

  lemma ExampleHeaviest(buffer: seq<nat>)
    requires buffer == [0, 2, 1, 3, 1, 0, 0, 0, 0, 0, 1]
    ensures Heaviest(buffer, 4, 7, 1)
  {
    WindowOfFour(buffer, 1);
    WindowOfFour(buffer, 2);
    WindowOfFour(buffer, 3);
    WindowOfFour(buffer, 4);
    WindowOfFour(buffer, 5);
    WindowOfFour(buffer, 6);
    forall i | 1 <= i < 7
      ensures WindowSum(buffer, i, 4) <= WindowSum(buffer, 1, 4)
    {
    }
  }

  lemma ExampleScan(buffer: seq<nat>)
    requires buffer == [0, 2, 1, 3, 1, 0, 0, 0, 0, 0, 1]
    ensures HeaviestStart(buffer, 4, 7) == 1
  {
    ExampleHeaviest(buffer);
    HeaviestStartIs(buffer, 4, 7, 1);
  }

  /** Ordinals 1, 1, 2, 3, 3, 3, 4, 10 of one video with windows of 4
      seconds: the histogram is 0, 2, 1, 3, 1, 0, 0, 0, 0, 0, 1 and the
      window at second 1 (sum 7) wins, so the clip is seconds 1 to 5. */
  lemma ExampleOrdinals(hits: seq<Hit>)
    requires hits == [Hit("clip", 1), Hit("clip", 1), Hit("clip", 2), Hit("clip", 3),
                      Hit("clip", 3), Hit("clip", 3), Hit("clip", 4), Hit("clip", 10)]
    ensures Ordinals(hits) == [1, 1, 2, 3, 3, 3, 4, 10]
    ensures forall n :: 0 <= n < |hits| ==> hits[n].video == "clip"
  {
  }

  lemma ExampleClip(hits: seq<Hit>)
    requires hits == [Hit("clip", 1), Hit("clip", 1), Hit("clip", 2), Hit("clip", 3),
                      Hit("clip", 3), Hit("clip", 3), Hit("clip", 4), Hit("clip", 10)]
    ensures RangeOfHits(hits, DefaultInterval) == Ok(Clip("clip.MOV", 1, 5))
  {
    assert VideoFile("clip") == "clip.MOV";
    ExampleOrdinals(hits);
    var buffer := Histogram(Ordinals(hits));
    ExampleHistogram(Ordinals(hits));
    ExampleHeaviest(buffer);
    ClipStartIs(Ordinals(hits), DefaultInterval, 1);
    RangeOfOneVideo(hits, "clip", DefaultInterval);
  }

  lemma LoneHitHistogram(xs: seq<nat>)
    requires xs == [5]
    ensures Histogram(xs) == [0, 0, 0, 0, 0, 1]
  {
    forall o | 0 <= o < 6
      ensures Histogram(xs)[o] == [0, 0, 0, 0, 0, 1][o]
    {
      CountIsMultiplicity(xs, o);
    }
  }

  lemma LoneHitHeaviest(buffer: seq<nat>)
    requires buffer == [0, 0, 0, 0, 0, 1]
    ensures Heaviest(buffer, 4, 2, 0)
    ensures HeaviestStart(buffer, 4, 3) == 2
  {
    WindowOfFour(buffer, 1);
    WindowOfFour(buffer, 2);
    HeaviestStartIs(buffer, 4, 3, 2);
  }

  /** Line 42 never scans the last window. A lone hit on frame 5 with
      windows of 4 seconds gives the clip 0 to 4, which does not contain
      frame 5; scanning the last window gives 2 to 6. */
  lemma LastWindowSkipped(hits: seq<Hit>)
    requires hits == [Hit("clip", 5)]
    ensures RangeOfHits(hits, 4) == Ok(Clip("clip.MOV", 0, 4))
    ensures RangeOfHitsCorrected(hits, 4) == Ok(Clip("clip.MOV", 2, 6))
  {
    assert VideoFile("clip") == "clip.MOV";
    assert Ordinals(hits) == [5];
    LoneHitHistogram(Ordinals(hits));
    LoneHitHeaviest(Histogram(Ordinals(hits)));
    ClipStartIs(Ordinals(hits), 4, 0);
    RangeOfOneVideo(hits, "clip", 4);
    CorrectedRangeOfOneVideo(hits, "clip", 4);
  }

  lemma ShortHitHistogram(xs: seq<nat>)
    requires xs == [3]
    ensures Histogram(xs) == [0, 0, 0, 1]
  {
    forall o | 0 <= o < 4
      ensures Histogram(xs)[o] == [0, 0, 0, 1][o]
    {
      CountIsMultiplicity(xs, o);
    }
  }

  lemma ShortHitHeaviest(buffer: seq<nat>)
    requires buffer == [0, 0, 0, 1]
    ensures Heaviest(buffer, 4, 0, 0)
    ensures HeaviestStart(buffer, 4, 1) == 0
  {
    HeaviestStartIs(buffer, 4, 1, 0);
  }

  /** When the largest ordinal is at most `interval`, line 42's `range` is
      empty: no window is scanned and the start stays 0 from line 41. A lone
      hit on frame 3 with windows of 4 seconds gives the clip 0 to 4, and so
      does scanning the last window, whose range is empty too. */
  lemma NothingScannedStartsAtZero(hits: seq<Hit>)
    requires hits == [Hit("clip", 3)]
    ensures RangeOfHits(hits, 4) == Ok(Clip("clip.MOV", 0, 4))
    ensures RangeOfHitsCorrected(hits, 4) == Ok(Clip("clip.MOV", 0, 4))
  {
    ShortHitWritten(hits);
    ShortHitCorrected(hits);
  }

  lemma ShortHitWritten(hits: seq<Hit>)
    requires hits == [Hit("clip", 3)]
    ensures RangeOfHits(hits, 4) == Ok(Clip("clip.MOV", 0, 4))
  {
    assert VideoFile("clip") == "clip.MOV";
    assert Ordinals(hits) == [3];
    ShortHitHistogram(Ordinals(hits));
    ShortHitHeaviest(Histogram(Ordinals(hits)));
    ClipStartIs(Ordinals(hits), 4, 0);
    RangeOfOneVideo(hits, "clip", 4);
  }

  lemma ShortHitCorrected(hits: seq<Hit>)
    requires hits == [Hit("clip", 3)]
    ensures RangeOfHitsCorrected(hits, 4) == Ok(Clip("clip.MOV", 0, 4))
  {
    assert VideoFile("clip") == "clip.MOV";
    assert Ordinals(hits) == [3];
    ShortHitHistogram(Ordinals(hits));
    ShortHitHeaviest(Histogram(Ordinals(hits)));
    assert ClipStart(Ordinals(hits), 4, true) == 0 by {
      assert FullStop(Histogram(Ordinals(hits)), 4) == 1;
    }
    CorrectedRangeOfOneVideo(hits, "clip", 4);
  }

  lemma TwoVideoGroups()
    ensures Videos([Hit("a", 1), Hit("b", 2), Hit("b", 3)]) == ["a", "b"]
    ensures OrdinalsOf([Hit("a", 1), Hit("b", 2), Hit("b", 3)], "a") == [1]
    ensures OrdinalsOf([Hit("a", 1), Hit("b", 2), Hit("b", 3)], "b") == [2, 3]
  {
    var hits := [Hit("a", 1), Hit("b", 2), Hit("b", 3)];
    assert hits[..2] == [Hit("a", 1), Hit("b", 2)];
    assert hits[..2][..1] == [Hit("a", 1)];
    assert [Hit("a", 1)][..0] == [];
  }

  /** The video with most hits among `a`, `b`, `b` is `b`. */
  lemma MostHitsIsB(hits: seq<Hit>)
    requires hits == [Hit("a", 1), Hit("b", 2), Hit("b", 3)]
    ensures SelectMostHits(hits) == "b"
    ensures VideoFile(SelectMostHits(hits)) == "b.MOV"
  {
    assert VideoFile("b") == "b.MOV";
    TwoVideoGroups();
    var v := SelectMostHits(hits);
    assert v in Videos(hits);
    assert |OrdinalsOf(hits, hits[1].video)| <= |OrdinalsOf(hits, v)|;
  }

  /** Line 35 binds `videoCount` to a list: hits on two videos raise
      TypeError, where the evident intent picks the video with more hits. */
  lemma MixedVideosRaise(hits: seq<Hit>)
    requires hits == [Hit("a", 1), Hit("b", 2), Hit("b", 3)]
    ensures RangeOfHits(hits, 4) == Err(MixedVideos)
    ensures RangeOfHitsCorrected(hits, 4).Ok?
    ensures RangeOfHitsCorrected(hits, 4).value.video == "b.MOV"
  {
    TwoVideoGroups();
    MostHitsIsB(hits);
  }
}

=== FILE: selection.dfy ===
/** The selection rule both scans of the range search use
    (`functions/search_context.py`, lines 32-35 over videos, lines 41-45
    over windows): walk the candidates left to right, starting from "none,
    count 0", and keep a candidate only when its count is strictly larger
    than the best so far. */
module Selection {

  /** `r` is where that scan ends over `cs`: -1 ("none") when every count is
      0, otherwise the first index holding the largest count. */
  ghost predicate IsFirstMax(cs: seq<nat>, r: int) {
    || (r == -1 && forall j :: 0 <= j < |cs| ==> cs[j] == 0)
    || (&& 0 <= r < |cs|
        && cs[r] > 0
        && (forall j :: 0 <= j < |cs| ==> cs[j] <= cs[r])
        && (forall j :: 0 <= j < r ==> cs[j] < cs[r]))
  }

  /** The scan from index `i` on, with `best` and `count` the state it has
      reached over `cs[..i]`. */
  function ScanFrom(cs: seq<nat>, i: nat, best: int, count: nat): (r: int)
    requires i <= |cs|
    requires IsFirstMax(cs[..i], best)
    requires count == if best == -1 then 0 else cs[best]
    ensures IsFirstMax(cs, r)
    decreases |cs| - i
  {
    if i == |cs| then
      assert cs[..i] == cs;
      best
    else
      assert forall j :: 0 <= j < i ==> cs[..i + 1][j] == cs[..i][j];
      if cs[i] > count then ScanFrom(cs, i + 1, i, cs[i])
      else ScanFrom(cs, i + 1, best, count)
  }

  /** The scan over all of `cs`. */
  function FirstMax(cs: seq<nat>): (r: int)
    ensures IsFirstMax(cs, r)
  {
    ScanFrom(cs, 0, -1, 0)
  }

  /** One step of the scan: appending a candidate `c` moves the result to
      `c` exactly when `c` beats the best count so far. */
  lemma FirstMaxStep(cs: seq<nat>, r: int, count: nat, c: nat)
    requires IsFirstMax(cs, r)
    requires count == if r == -1 then 0 else cs[r]
    ensures IsFirstMax(cs + [c], if c > count then |cs| else r)
  {
    var ext := cs + [c];
    forall j | 0 <= j < |cs|
      ensures ext[j] == cs[j]
    {
    }
  }

  /** The rule picks exactly one index: any two results agree. */
  lemma FirstMaxUnique(cs: seq<nat>, r1: int, r2: int)
    requires IsFirstMax(cs, r1) && IsFirstMax(cs, r2)
    ensures r1 == r2
  {
  }
}

=== FILE: window.dfy ===
/** The sliding window of `functions/search_context.py`, lines 41-45: over
    `range(1, stop)`, the start of the first window of `interval` slots
    whose sum is strictly the largest; 0 when no window holds anything. */
module Window {
  import opened Occupancy
  import opened Selection

  /** Python's normalisation of a slice bound `k` for a list of length `n`:
      a negative bound counts from the end, and the result is clamped to
      `[0, n]`. */
  function SliceIndex(k: int, n: nat): nat
  {
    if k < 0 then (if k + n < 0 then 0 else k + n)
    else if k > n then n
    else k
  }

  /** `s[lo:hi]`, including negative and out-of-range bounds. */
  function PySlice(s: seq<nat>, lo: int, hi: int): (r: seq<nat>)
    ensures 0 <= lo <= hi <= |s| ==> r == s[lo..hi]
    ensures |r| <= |s|
  {
    var a := SliceIndex(lo, |s|);
    var b := SliceIndex(hi, |s|);
    if a < b then s[a..b] else []
  }

  /** `sum(buffer[i : i + interval])` (line 43). */
  function WindowSum(buffer: seq<nat>, i: int, interval: int): nat
  {
    Sum(PySlice(buffer, i, i + interval))
  }

  /** The start the scan over `range(1, stop)` settles on: 0 when every
      scanned window sums to 0, otherwise the first scanned start whose sum
      is the largest. */
  ghost predicate Heaviest(buffer: seq<nat>, interval: int, stop: int, start: int) {
    || (start == 0 && forall i :: 1 <= i < stop ==> WindowSum(buffer, i, interval) == 0)
    || (&& 1 <= start < stop
        && WindowSum(buffer, start, interval) > 0
        && (forall i :: 1 <= i < stop ==> WindowSum(buffer, i, interval) <= WindowSum(buffer, start, interval))
        && (forall i :: 1 <= i < start ==> WindowSum(buffer, i, interval) < WindowSum(buffer, start, interval)))
  }

  /** The stop of line 42 as written: `len(buffer) - interval`, so the last
      start that fits, `len(buffer) - interval`, is never scanned. */
  function WrittenStop(buffer: seq<nat>, interval: int): int
  {
    |buffer| - interval
  }

  /** The stop that also scans the last window that fits in the buffer. */
  function FullStop(buffer: seq<nat>, interval: int): int
  {
    |buffer| - interval + 1
  }

  /** The window sums of the scanned starts `1 .. stop - 1`, in order. */
  function ScannedSums(buffer: seq<nat>, interval: int, stop: int): seq<nat>
  {
    seq(if stop > 1 then stop - 1 else 0, k => WindowSum(buffer, k + 1, interval))
  }

  /** The scan as a function: the selection rule applied to the scanned
      sums, shifted so that "none" becomes start 0. */
  function HeaviestStart(buffer: seq<nat>, interval: int, stop: int): (start: nat)
    ensures Heaviest(buffer, interval, stop, start)
    ensures start == 0 || start < stop
  {
    var r := FirstMax(ScannedSums(buffer, interval, stop));
    FirstMaxIsHeaviest(buffer, interval, stop, r);
    r + 1
  }

  /** The selection rule over the scanned sums, shifted by one, is the
      scan's outcome. */
  lemma FirstMaxIsHeaviest(buffer: seq<nat>, interval: int, stop: int, r: int)
    requires IsFirstMax(ScannedSums(buffer, interval, stop), r)
    ensures Heaviest(buffer, interval, stop, r + 1)
  {
    var sums := ScannedSums(buffer, interval, stop);
    forall i | 1 <= i < stop
      ensures sums[i - 1] == WindowSum(buffer, i, interval)
    {
    }
    if r == -1 {
      assert forall i :: 1 <= i < stop ==> WindowSum(buffer, i, interval) == 0;
    } else {
      assert WindowSum(buffer, r + 1, interval) == sums[r];
    }
  }

  /** Lines 41-45 as written, over `range(1, stop)`. */
  method SlideWindow(buffer: seq<nat>, interval: int, stop: int) returns (start: nat, count: nat)
    ensures Heaviest(buffer, interval, stop, start)
    ensures count == if start == 0 then 0 else WindowSum(buffer, start, interval)
    ensures start == HeaviestStart(buffer, interval, stop)
  {
    start, count := 0, 0;
    var i := 1;
    ScanStart(buffer, interval);
    while i < stop
      invariant 1 <= i && (i <= stop || i == 1)
      invariant ScanState(buffer, interval, i, start, count)
      decreases stop - i
    {
      var csm := WindowSum(buffer, i, interval);
      ScanStep(buffer, interval, i, start, count);
      if csm > count {
        start, count := i, csm;
      }
      i := i + 1;
    }
    ScanEnd(buffer, interval, stop, i, start, count);
  }

  /** The loop's state after scanning the starts before `i`: `start - 1` is
      where the selection rule stands over their sums, and `count` is the
      chosen window's sum. */
  ghost predicate ScanState(buffer: seq<nat>, interval: int, i: int, start: int, count: nat) {
    && 0 <= start < i
    && IsFirstMax(ScannedSums(buffer, interval, i), start - 1)
    && count == if start == 0 then 0 else WindowSum(buffer, start, interval)
  }

  /** Before the loop nothing is scanned: start 0, count 0. */
  lemma ScanStart(buffer: seq<nat>, interval: int)
    ensures ScanState(buffer, interval, 1, 0, 0)
  {
    assert ScannedSums(buffer, interval, 1) == [];
  }

  /** One iteration of the loop of lines 42-45 keeps `ScanState`. */
  lemma ScanStep(buffer: seq<nat>, interval: int, i: int, start: int, count: nat)
    requires 1 <= i
    requires ScanState(buffer, interval, i, start, count)
    ensures var w := WindowSum(buffer, i, interval);
            if w > count then ScanState(buffer, interval, i + 1, i, w)
            else ScanState(buffer, interval, i + 1, start, count)
  {
    var sums := ScannedSums(buffer, interval, i);
    var w := WindowSum(buffer, i, interval);
    ScannedSumsStep(buffer, interval, i);
    if start > 0 {
      assert sums[start - 1] == WindowSum(buffer, start, interval);
    }
    FirstMaxStep(sums, start - 1, count, w);
  }

  /** Scanning one more start appends its window sum. */
  lemma ScannedSumsStep(buffer: seq<nat>, interval: int, i: int)
    requires 1 <= i
    ensures ScannedSums(buffer, interval, i + 1) == ScannedSums(buffer, interval, i) + [WindowSum(buffer, i, interval)]
  {
  }

  /** When the loop stops, its state is the scan's outcome. */
  lemma ScanEnd(buffer: seq<nat>, interval: int, stop: int, i: int, start: int, count: nat)
    requires 1 <= i && (i == stop || (i == 1 && stop < 1))
    requires ScanState(buffer, interval, i, start, count)
    ensures Heaviest(buffer, interval, stop, start)
    ensures count == if start == 0 then 0 else WindowSum(buffer, start, interval)
    ensures start == HeaviestStart(buffer, interval, stop)
  {
    var sums := ScannedSums(buffer, interval, stop);
    assert ScannedSums(buffer, interval, i) == sums;
    FirstMaxUnique(sums, start - 1, FirstMax(sums));
    FirstMaxIsHeaviest(buffer, interval, stop, start - 1);
  }

  /** The scan's outcome is determined: two starts that both satisfy
      `Heaviest` are equal. */
  lemma HeaviestUnique(buffer: seq<nat>, interval: int, stop: int, s1: int, s2: int)
    requires Heaviest(buffer, interval, stop, s1) && Heaviest(buffer, interval, stop, s2)
    ensures s1 == s2
  {
  }

  /** Whatever start satisfies `Heaviest` is the one the scan computes. */
  lemma HeaviestStartIs(buffer: seq<nat>, interval: int, stop: int, start: int)
    requires Heaviest(buffer, interval, stop, start)
    ensures HeaviestStart(buffer, interval, stop) == start
  {
    HeaviestUnique(buffer, interval, stop, start, HeaviestStart(buffer, interval, stop));
  }

  /** With a non-negative `interval`, a window that fits in the histogram
      sums to the number of hits on its frames. */
  lemma WindowCountsHits(xs: seq<nat>, i: int, interval: int)
    requires |xs| > 0
    requires 0 <= i && 0 <= interval && i + interval <= |Histogram(xs)|
    ensures WindowSum(Histogram(xs), i, interval) == Count(xs, i, i + interval)
  {
    RangeSum(xs, i, i + interval);
  }
}
